=== FILE: README.md ===
# CS50 AI exercises: a verified Dafny model

This project models four exercises from a CS50 introduction-to-AI coursework
repository. For each one it proves the properties the code promises.

- **Crossword** (`crossword/generate.py`) is a constraint-satisfaction solver that fills a crossword grid.
  - Each variable (a slot) has a domain of candidate words.
  - Node consistency keeps the words of the right length.
  - `revise` and AC-3 enforce arc consistency over overlapping slots.
  - Backtracking search completes the grid, using the minimum-remaining-values / degree heuristics and least-constraining-value ordering.
  - Files: `crossword.dfy` holds the data model, node consistency, `revise`, completeness and consistency; `ac3.dfy` holds AC-3; `search.dfy` holds value ordering, variable selection, backtracking and `solve`.
- **Tic-tac-toe** (`tictactoe/tictactoe.py`) covers the board, whose turn it is, the legal moves, the move result, winner detection, and minimax through the two mutually recursive value functions `maxima` and `minma`. File: `tictactoe.dfy`.
- **Degrees** (`degrees/degrees.py`) covers co-star neighbourhoods, name lookup and the breadth-first `shortest_path` search between two people over (movie, person) pairs. File: `degrees.dfy`.
- **Shopping** (`shopping/shopping.py`) covers the CSV field decoders and the sensitivity/specificity evaluation of a classifier's predictions. File: `shopping.dfy`.

`wrappers.dfy` holds the `Option` type. `Option` stands for Python's `None` results and for the exceptions the code raises.

The Python code mutates state in place: domains on the solver object, the assignment dict, and the search frontier. The model threads that state as immutable values instead. Each function's result, or a method's out-parameters, is the state after the call.

## Model

| member | source | states |
|---|---|---|
| Crossword.Neighbors | crossword/generate.py:168 | the neighbours of `x` are exactly the other puzzle variables whose overlap with `x` is defined |
| Crossword.InitialDomains | crossword/generate.py:13-16 | every variable starts with the whole word list as its domain |
| Crossword.EnforceNodeConsistency | crossword/generate.py:96-108 | every variable keeps a domain. Afterwards every remaining word has the variable's length (node consistency). Domains only shrink. Every word of the right length is kept. |
| Crossword.Revise | crossword/generate.py:111-136 | only `x`'s domain may change, and only by losing words. With no overlap nothing changes and the result is false. The result is true exactly when some word was removed. Afterwards the arc (x, y) is arc-consistent: every word left for `x` has a partner in `y`'s domain agreeing at the crossing. |
| Crossword.ReviseKeepsSolution | crossword/generate.py:123-132 | `revise` never removes the word a consistent assignment drawn from the domains gives `x`: that assignment's word for `y` supports it |
| Crossword.AssignmentComplete | crossword/generate.py:177-187 | true exactly when every puzzle variable is assigned a word from the word list |
| Crossword.CheckConsistent | crossword/generate.py:191-211 | the pairwise scan answers true exactly when every assigned word has its variable's length, no two variables share a word, and overlapping variables agree at the crossing |
| Crossword.EmptyAssignmentConsistent | crossword/generate.py:191-211 | the empty assignment is consistent, so search starts from a consistent state |
| ArcConsistency.SeedArcs | crossword/generate.py:149-158 | the seeded queue holds each ordered pair of distinct variables exactly once |
| ArcConsistency.Requeue | crossword/generate.py:168-171 | after `x` is revised against `y`, the re-queued arcs are exactly (z, x) for every neighbour z of `x` other than `y` |
| ArcConsistency.ReviseKeepsArc | crossword/generate.py:111-136 | revising `x` keeps every already arc-consistent arc not pointing into `x` consistent |
| ArcConsistency.ReviseShrinks | crossword/generate.py:165-166 | one revision keeps domains node-consistent and shrinking. Only `x`'s domain can become newly empty. |
| ArcConsistency.StepKeepsPending | crossword/generate.py:161-171 | after one queue step, every arc of the initial queue is either still queued or arc-consistent |
| ArcConsistency.SizeShrinks | crossword/generate.py:165-167 | a revision that removes a word strictly lowers the total domain size, which bounds the loop |
| ArcConsistency.SeededHoldsOverlaps | crossword/generate.py:149-158 | every overlapping arc is in the seeded queue |
| ArcConsistency.ReviseKeepsSolutions | crossword/generate.py:165 | every consistent assignment drawn from the domains is still drawn from them after one `revise` |
| ArcConsistency.ReviseAtFixpoint | crossword/generate.py:123-136 | when every overlapping arc is already consistent, `revise` removes nothing and answers false |
| ArcConsistency.RequeueKeepsQueueOK | crossword/generate.py:162-170 | popping the front arc and appending the arcs into x keep every queued arc a pair of distinct puzzle variables |
| ArcConsistency.ReviseOutcome | crossword/generate.py:161-163 | one `revise` inside the AC-3 loop keeps the domains covering and node-consistent. It only shrinks them, and empties x only if x had words on entry. It keeps every consistent assignment drawn from the domains, and it changes nothing when every overlapping arc is already consistent. |
| ArcConsistency.Ac3Step | crossword/generate.py:161-171 | one iteration keeps the loop invariant and every consistent assignment drawn from the domains. It reports an emptied domain only when `revise` emptied a domain that was not empty on entry. On all-arc-consistent domains it changes nothing. Otherwise (total domain size, queue length) decreases lexicographically. |
| ArcConsistency.Ac3 | crossword/generate.py:138-173 | the result is false only when `revise` emptied a domain that was not empty on entry. If true, no domain became empty, and every overlapping arc (or every arc of the queue given) is arc-consistent. Domains only shrink and stay node-consistent. AC-3 removes only words no consistent assignment drawn from the domains uses, so a false result means no such assignment exists. On domains that are already arc-consistent it returns true and changes nothing. |
| CrosswordSearch.InsertByKey | crossword/generate.py:235 | inserting into the sorted list adds exactly the new word |
| CrosswordSearch.InsertKeepsSorted | crossword/generate.py:235 | insertion keeps the list sorted by the conflict count |
| CrosswordSearch.InsertKeepsDistinct | crossword/generate.py:221-235 | insertion keeps the list free of duplicates |
| CrosswordSearch.OrderDomainValues | crossword/generate.py:214-237 | the result lists exactly the words of `var`'s domain, each once, in non-decreasing order of how many words they rule out for the assigned overlapping variables |
| CrosswordSearch.Unassigned | crossword/generate.py:249-252 | the candidates are exactly the puzzle variables not yet assigned |
| CrosswordSearch.FirstMinIndex | crossword/generate.py:254-255 | the head of a stable sort by key is the first position of minimal key |
| CrosswordSearch.SecondMinIndex | crossword/generate.py:254-257 | the second element of a stable sort by key is the first position of minimal key other than the head |
| CrosswordSearch.SkipMin | crossword/generate.py:254-257 | the head of the stable sort of the others, mapped back to its position, is the first key-minimal position other than the head |
| CrosswordSearch.ChooseVariable | crossword/generate.py:254-264 | the chosen variable is a candidate with the fewest remaining values or the fewest neighbours, and a strictly unique smallest domain is always chosen. The exact tie rule is ChooseVariableTieRule. |
| CrosswordSearch.FirstTwoUnique | crossword/generate.py:254-257 | the first two positions of a stable sort by key are determined by the keys alone |
| CrosswordSearch.ChooseVariableTieRule | crossword/generate.py:254-264 | with `i`, `j` the first two positions by domain size: if they tie in both size and degree, the choice is the first variable of fewest neighbours among ALL candidates; otherwise it is the variable at `i`. A size tie with different degrees still gives `i`, since line 261 compares a value with itself. |
| CrosswordSearch.TieSelectsFewestNeighbours | crossword/generate.py:258-260 | with sizes 2, 2, 10 and degrees 3, 3, 0 the third variable is chosen, although it has the most remaining values |
| CrosswordSearch.SelectUnassignedVariable | crossword/generate.py:239-264 | no variable is selected exactly when all are assigned. A selected variable is an unassigned puzzle variable. |
| CrosswordSearch.SelectIsMinimal | crossword/generate.py:254-264 | the selected variable minimises the number of remaining values or the number of neighbours over all unassigned variables. SelectTieRule states which. |
| CrosswordSearch.SelectTieRule | crossword/generate.py:247-264 | over the unassigned variables in puzzle order: a tie of the first two by size and degree selects the first of fewest neighbours, and anything else selects the first of fewest remaining values |
| CrosswordSearch.SelectUniqueFewest | crossword/generate.py:254-264 | an unassigned variable with strictly the fewest remaining values is the one selected |
| CrosswordSearch.AssignShrinksOpen | crossword/generate.py:279-283 | assigning the selected variable leaves strictly fewer unassigned variables, so the recursion terminates |
| CrosswordSearch.PopRestores | crossword/generate.py:281-286 | `assignment.pop(var)` after `assignment[var] = word` restores the map |
| CrosswordSearch.PickVariable | crossword/generate.py:279 | the branching variable is an unassigned puzzle variable with a domain. Failure happens only when every variable is assigned or some unassigned variable has no domain. |
| CrosswordSearch.NextVariable | crossword/generate.py:279-280 | the branching variable is unassigned, and the values tried are exactly its domain. Failure happens only when every variable is assigned or the chosen one has no domain. |
| CrosswordSearch.ConsistentWithin | crossword/generate.py:191-211 | every part of a consistent assignment is consistent |
| CrosswordSearch.ThroughValue | crossword/generate.py:281-283 | a solution reachable from the assignment that gives `var` the word `word` is reachable from the extended assignment, which passes `consistent` |
| CrosswordSearch.ExcludeNext | crossword/generate.py:280-286 | a word rejected by `consistent`, or whose recursive call failed, is used by no reachable solution |
| CrosswordSearch.AllValuesExcluded | crossword/generate.py:280-287 | when every word of the domain is excluded, no solution is reachable and `None` is right |
| CrosswordSearch.SolutionShape | crossword/generate.py:276-279 | any reachable solution means the assignment is complete once every variable is assigned, and every unassigned variable has a domain |
| CrosswordSearch.NothingToBranchOn | crossword/generate.py:276-279 | when there is nothing to branch on and the assignment is incomplete, no solution is reachable |
| CrosswordSearch.Backtrack | crossword/generate.py:267-287 | a complete input is returned as is. A result is complete, extends the input, and takes every new value from the variable's domain. Starting from a consistent assignment, the result is consistent. On failure the shared map is exactly as on entry, and no complete consistent extension with values from the domains exists. |
| CrosswordSearch.SolutionsSurvive | crossword/generate.py:88-94 | every solution of the puzzle fits the node-consistent and AC-3-pruned domains, so the search from the empty assignment can reach it |
| CrosswordSearch.Solve | crossword/generate.py:88-94 | a result is a solution: every variable gets a dictionary word of the right length, and the assignment is consistent. `None` comes only when the puzzle has no solution. A puzzle with no variables is solved by the empty assignment. |
| TicTacToe.InitialState | tictactoe/tictactoe.py:13-19 | all nine cells start empty |
| TicTacToe.Player | tictactoe/tictactoe.py:22-40 | the player to move is O exactly when an odd number of marks is on the board, and never empty |
| TicTacToe.InitialPlayerIsX | tictactoe/tictactoe.py:13-38 | X moves first |
| TicTacToe.PlayersAlternate | tictactoe/tictactoe.py:22-74 | after any legal move it is the other player's turn |
| TicTacToe.MoveAddsOneMark | tictactoe/tictactoe.py:63-74 | a legal move adds exactly one mark to the board |
| TicTacToe.RowActions | tictactoe/tictactoe.py:52-56 | the moves found in row `i` are exactly that row's empty cells, in column order |
| TicTacToe.Actions | tictactoe/tictactoe.py:43-59 | the actions are exactly the empty cells, in row-major order, one per empty cell |
| TicTacToe.Result | tictactoe/tictactoe.py:63-74 | an occupied cell is an error. Otherwise the new board has the mover's mark at the move, every other cell unchanged, and one more mark of the mover. |
| TicTacToe.AfterIsResult | tictactoe/tictactoe.py:63-74 | the move used in the game tree is `result` on a legal move |
| TicTacToe.Winner | tictactoe/tictactoe.py:76-96 | a reported winner owns a full line, and with no uniform line there is no winner |
| TicTacToe.WinnerIsFirstUniformLine | tictactoe/tictactoe.py:76-96 | `winner` reports the owner of the first uniform line in order: rows, columns, diagonals |
| TicTacToe.WinnerStopsAtEmptyLine | tictactoe/tictactoe.py:81-84 | a uniformly empty row before a full row of X makes `winner` report no winner |
| TicTacToe.Terminal | tictactoe/tictactoe.py:99-106 | the game is over exactly when no cell is empty or someone has won. A live game has a legal move. |
| TicTacToe.Utility | tictactoe/tictactoe.py:108-117 | the utility is 1 exactly for an X win, -1 exactly for an O win, and 0 otherwise |
| TicTacToe.Maxima | tictactoe/tictactoe.py:142-148 | the value for X lies in [-1, 1]; its recursion is stated by ValuesAtTerminal and MaximaIsBestMove |
| TicTacToe.Minma | tictactoe/tictactoe.py:150-156 | the value for O lies in [-1, 1]; its recursion is stated by ValuesAtTerminal and MinmaIsBestMove |
| TicTacToe.ValuesAtTerminal | tictactoe/tictactoe.py:142-156 | at a finished game both values equal the utility |
| TicTacToe.MaxFold | tictactoe/tictactoe.py:146-147 | the running maximum bounds the `minma` value of every move folded in |
| TicTacToe.MinFold | tictactoe/tictactoe.py:154-155 | the running minimum is bounded by the `maxima` value of every move folded in |
| TicTacToe.MaxFoldAttained | tictactoe/tictactoe.py:146-147 | the running maximum is the seed or the value of some move |
| TicTacToe.MinFoldAttained | tictactoe/tictactoe.py:154-155 | the running minimum is the seed or the value of some move |
| TicTacToe.MaximaIsBestMove | tictactoe/tictactoe.py:142-148 | in a live game `maxima` is the largest `minma` value over the legal moves, and some move attains it |
| TicTacToe.MinmaIsBestMove | tictactoe/tictactoe.py:150-156 | in a live game `minma` is the smallest `maxima` value over the legal moves, and some move attains it |
| TicTacToe.BestForX | tictactoe/tictactoe.py:127-132 | X's scan keeps a legal move whose `minma` value is the best seen so far |
| TicTacToe.BestForO | tictactoe/tictactoe.py:135-140 | O's scan keeps a legal move whose `maxima` value is the best seen so far |
| TicTacToe.Minimax | tictactoe/tictactoe.py:119-140 | there is no move exactly at a finished game. Otherwise the move is legal and optimal for the mover: X's maximises `minma` of the result, O's minimises `maxima`. |
| TicTacToe.MinimaxAchievesMaxima | tictactoe/tictactoe.py:126-132 | X's chosen move reaches the board's `maxima` value |
| TicTacToe.MinimaxAchievesMinma | tictactoe/tictactoe.py:134-140 | O's chosen move reaches the board's `minma` value |
| Degrees.NeighborsForPerson | degrees/degrees.py:170-180 | the neighbours are exactly the (movie, star) pairs of the person's movies. They include the person themself, and each neighbour really starred in that movie. |
| Degrees.NeighborsSymmetric | degrees/degrees.py:170-180 | q is a neighbour of p through m exactly when p is a neighbour of q through m |
| Degrees.Lower | degrees/degrees.py:149 | lower-casing maps each character and keeps the length |
| Degrees.LowerIdempotent | degrees/degrees.py:149 | lower-casing twice is lower-casing once |
| Degrees.PersonIdForName | degrees/degrees.py:144-167 | an unknown name gives None and a unique name gives its id. For an ambiguous name the typed id is returned exactly when it is one of the name's ids, and None otherwise. |
| Degrees.Expand | degrees/degrees.py:134-141 | every pushed node is an unseen neighbour whose parent is the removed node, and every unseen neighbour is pushed |
| Degrees.Seed | degrees/degrees.py:103-106 | the frontier starts with a node for every neighbour of the source, each with the source as parent |
| Degrees.ExpandKeepsClosed | degrees/degrees.py:114-141 | every neighbour of a seen pair stays seen or queued after a step |
| Degrees.Advance | degrees/degrees.py:110-141 | one step without reaching the target keeps the search invariant. The lexicographic measure (unseen pairs, stale frontier nodes) decreases, so the loop terminates. |
| Degrees.ExhaustedClosed | degrees/degrees.py:111-112 | when the frontier runs dry, every seen pair is a real star and the seen pairs are closed under neighbours |
| Degrees.Explore | degrees/degrees.py:93-119 | the search loop stops at a removed node whose person is the target, with a linked history of real pairs ending at that node. Without one, the removed pairs never name the target, include all of the source's neighbours and are closed under co-starring. |
| Degrees.HistoryPairsAreStars | degrees/degrees.py:116 | every pair recorded in the history is a real (movie, star) pair |
| Degrees.ShortestPath | degrees/degrees.py:88-141 | a path is returned exactly when some co-star chain leads from the source to the target, so `None` means "Not connected.". With the forward-scan reconstruction as written, a returned path is non-empty, ends at the target and consists of real (movie, star) pairs. It need not start at the source (see Findings). |
| Degrees.ShortestChain | degrees/degrees.py:88-141 | with the path rebuilt by following parent links, a returned path is a co-star chain from the source that ends at the target. `None` means no such chain exists. |
| Degrees.ClosedSeenHoldsChain | degrees/degrees.py:110-141 | the pairs an exhausted search has seen include every pair of every co-star chain from the source |
| Degrees.NotConnected | degrees/degrees.py:110-112 | when the frontier empties without meeting the target, no co-star chain from the source reaches the target |
| Degrees.Reconstruct | degrees/degrees.py:124-129 | the forward-only walk only collects pairs from the history |
| Degrees.PathTo | degrees/degrees.py:119-132 | the returned list ends at the target node and otherwise holds only history pairs |
| Degrees.TraceFrom | degrees/degrees.py:119-132 | walking back through each node's parent gives a path ending at the target pair |
| Degrees.TraceIsChain | degrees/degrees.py:119-132 | walking back through parents over a well-formed history always yields a chain from the source |
| Degrees.ChainDbLinked | degrees/degrees.py:170-180 | the example database's star maps agree |
| Degrees.ChainHistoryWellFormed | degrees/degrees.py:114-141 | the example search history has each parent seen before its child |
| Degrees.ForwardScanLosesChain | degrees/degrees.py:121-132 | the forward scan returns a path missing its first link (see Findings) |
| Degrees.ParentWalkKeepsChain | degrees/degrees.py:121-132 | the parent walk returns the whole three-link path on the same history |
| Shopping.MonthToNum | shopping/shopping.py:113-115 | a known month name maps to its index below 12, and exactly the twelve table names are known |
| Shopping.MonthToNumOnto | shopping/shopping.py:113-115 | each table name decodes to its own index |
| Shopping.MonthToNumInjective | shopping/shopping.py:113-115 | two names that decode to the same index are the same name |
| Shopping.JunIsNotAKey | shopping/shopping.py:114 | the table spells June in full, so `"Jun"` decodes to nothing |
| Shopping.VisitType | shopping/shopping.py:117-122 | the value is 0 or 1, and 1 exactly for `Returning_Visitor` |
| Shopping.WeekendRevenueNum | shopping/shopping.py:109-111 | `FALSE` gives 0 and `TRUE` gives 1, and every other string gives nothing |
| Shopping.Zip | shopping/shopping.py:155 | pairs labels with predictions up to the shorter length |
| Shopping.TallyBounds | shopping/shopping.py:150-163 | positives plus negatives count every pair, and the correct predictions never exceed their totals |
| Shopping.TallyPerfect | shopping/shopping.py:150-163 | perfect predictions get every positive and every negative right |
| Shopping.RateInUnit | shopping/shopping.py:166 | a hit count over a larger total lies in [0, 1] |
| Shopping.Evaluate | shopping/shopping.py:135-166 | the result is a division by zero exactly when there are no positive labels or no negative labels. Otherwise sensitivity and specificity are the correct-prediction fractions of each class, each in [0, 1]. |

## Left out

- Drawing and saving the crossword grid (`letter_grid`, `print`, `save`) and every `main`: console and file I/O.
- The crossword puzzle class (`crossword.py`) is not part of this model.
  - A puzzle is the record `Puzzle(variables, overlaps, words)`.
  - A missing overlap key stands for `None`.
  - The variable set's iteration order is the order of `variables`.
  - `neighbors` returns the other variables with a defined overlap.
- The helpers `Node` and `QueueFrontier` (`util.py`) are not part of this model. A node is a record, and the frontier is a sequence used as a FIFO queue.
- Python set iteration order:
  - domains are iterated in an unspecified order, chosen nondeterministically;
  - `sorted` over equal keys keeps whatever order the dict had;
  - `neighbors_for_person` returns a set, and the search pushes its elements in an arbitrary order.
- Crossword.Revise: a crossing index outside a word counts as a mismatch (`Agrees`), so the word is removed. At generate.py:126 Python raises `IndexError` there instead. Under a well-formed puzzle with node-consistent domains, which AC-3 keeps, the index is always in range.
- ArcConsistency.Ac3: requires a well-formed puzzle (symmetric overlaps with indices inside the words). Otherwise `neighboring_set.remove` raises `KeyError`.
- CrosswordSearch.SelectUnassignedVariable: `None` stands for the `IndexError` raised when no variable is unassigned. The comparison at generate.py:261 compares a value with itself and never fires, so that branch is not modelled.
- CrosswordSearch.Backtrack: an `IndexError` from selection, or a chosen variable without a domain, is modelled as the failure result `None`. generate.py:251 raises `KeyError` as soon as ANY unassigned variable lacks a domain. The model fails only when the chosen one lacks it, and counts a missing domain as size 0 otherwise. `solve` always passes domains covering every variable, so this never arises on the solver's path.
- Crossword.CheckConsistent and CrosswordSearch.OrderDomainValues: a crossing index outside a word counts as a mismatch. `consistent` then answers false, and `order_domain_values` counts a conflict. At generate.py:209 and :232 Python raises `IndexError` instead. That needs a word of the wrong length, which node-consistent domains and the length check at generate.py:198 exclude on the solver's path.
- ArcConsistency.Ac3: the queue given as `arcs` is taken by value. Python pops from the caller's own list (generate.py:147, 163). `solve` passes `None`, so no caller sees the difference.
- TicTacToe.Result: moves are required to be on the board. Python would wrap negative indices around; the code never produces them.
- TicTacToe.Maxima and TicTacToe.Minma: their contracts state only the range [-1, 1]. The recursive structure is stated by ValuesAtTerminal, MaximaIsBestMove and MinmaIsBestMove.
- Degrees.NeighborsForPerson: requires the two star maps to agree (`Linked`) and the person to be known. `load_data` can leave a person's movie without a `movies` entry: degrees.py:50 records the movie before degrees.py:51 raises a swallowed `KeyError`. In that case `neighbors_for_person` raises `KeyError` at degrees.py:178, and that error path is not modelled.
- Degrees.Lower: lower-cases ASCII letters only. Python's `str.lower` also folds other Unicode letters.
- Degrees.PersonIdForName: the console prompt `input()` is the parameter `choice`. The listing printed to the console is left out, and so is an end-of-input `EOFError`.
- Degrees.ShortestPath: a returned path is tied to the source only through the existence of some chain to the target. The returned path itself is only stated to end at the target and to consist of real pairs, because the forward scan does not guarantee it starts at the source (see Findings). Neither it nor Degrees.ShortestChain states that the path is the shortest. The depth counter `action` is never read and is left out, and so are the progress prints.
- Loading the CSV files (`load_data`, shopping's `load_data`) and training the classifier (`train_model`, scikit-learn): file I/O and a foreign library.
- Shopping.Evaluate: Python floats are modelled as exact reals. A zero denominator, where Python raises `ZeroDivisionError`, is the `DivisionByZero` outcome.
- The remaining exercises (heredity, pagerank, questions, minesweeper) are outside the modelled core.

Some behaviours of the code are modelled as written, even where they look unintended:

- `winner` stops at the first uniform row even when that row is empty (WinnerStopsAtEmptyLine).
- When the first two variables by domain size tie and have equal degrees, `select_unassigned_variable` picks the variable with the fewest neighbours among ALL unassigned variables. That variable need not have the fewest remaining values: with sizes 2, 2, 10 and degrees 3, 3, 0 it picks the third (CrosswordSearch.TieSelectsFewestNeighbours).
- `solve` ignores the verdict of `ac3`.
- `ac3` returns true when a variable with no overlaps enters with an empty domain: no `revise` ever empties it, although the docstring promises false when a domain ends up empty.
- `order_domain_values` counts conflicts only against assigned neighbours.

## Findings

| source | as written | input that shows it | evidently intended | confidence | as-written member | corrected member |
|---|---|---|---|---|---|---|
| degrees/degrees.py:124-129 | The path is rebuilt by one forward pass over the history of removed nodes. The pass appends an entry when it matches the current parent, then looks for that entry's parent only further on. A parent recorded earlier in the history is never found, and the path stops short of the source. | A chain s–m1–a–m2–b–m3–t searched from s to t, with every set visited in the order written. The target's parent (m2,b) is matched at history position 4. Its own parent (m1,a) sits at position 1, already passed. The result is [(m2,b),(m3,t)], which claims s starred in m2. | Follow parent links back to the source: [(m1,a),(m2,b),(m3,t)] | not executed | Degrees.ForwardScanLosesChain | Degrees.ShortestChain |

=== FILE: ac3.dfy ===
/** Arc consistency: the AC-3 worklist algorithm of `CrosswordCreator.ac3`,
    driving `revise` until no queued arc is left or a domain empties. */
module ArcConsistency {

  import opened Wrappers
  import opened Crossword

  /** The default queue: every ordered pair of distinct variables, scanning the
      variables in order and skipping a pair already queued. */
  method SeedArcs(vs: seq<Variable>) returns (q: seq<Arc>)
    ensures forall a :: a in q <==> a.0 in vs && a.1 in vs && a.0 != a.1
    ensures forall k, l :: 0 <= k < l < |q| ==> q[k] != q[l]
  {
    q := [];
    var n := 0;
    while n < |vs|
      invariant n <= |vs|
      invariant forall a :: a in q <==> a.0 in vs[..n] && a.1 in vs && a.0 != a.1
      invariant forall k, l :: 0 <= k < l < |q| ==> q[k] != q[l]
    {
      var m := 0;
      while m < |vs|
        invariant m <= |vs|
        invariant forall a :: a in q <==>
          (a.0 in vs[..n] && a.1 in vs && a.0 != a.1) || (a.0 == vs[n] && a.1 in vs[..m] && a.0 != a.1)
        invariant forall k, l :: 0 <= k < l < |q| ==> q[k] != q[l]
      {
        if vs[n] != vs[m] && (vs[n], vs[m]) !in q {
          q := q + [(vs[n], vs[m])];
        }
        assert vs[..m + 1] == vs[..m] + [vs[m]];
        m := m + 1;
      }
      assert vs[..m] == vs;
      assert vs[..n + 1] == vs[..n] + [vs[n]];
      n := n + 1;
    }
    assert vs[..n] == vs;
  }

  /** Sum of the domain sizes of the listed variables: the measure AC-3 decreases
      each time `revise` removes a word. */
  function Size(vs: seq<Variable>, d: Domains): nat
    requires forall v :: v in vs ==> v in d
  {
    if |vs| == 0 then 0 else |d[vs[0]]| + Size(vs[1..], d)
  }

  lemma SubsetCard<T>(a: set<T>, b: set<T>)
    requires a <= b
    ensures |a| <= |b|
    ensures a < b ==> |a| < |b|
  {
    assert b == a + (b - a);
    if a < b {
      var e :| e in b - a;
      assert e in b - a;
    }
  }

  /** Shrinking one domain strictly shrinks the total size, provided the variable is listed. */
  lemma {:induction false} SizeShrinks(vs: seq<Variable>, d: Domains, d': Domains, x: Variable)
    requires forall v :: v in vs ==> v in d && v in d'
    requires forall v :: v in vs ==> d'[v] <= d[v]
    ensures Size(vs, d') <= Size(vs, d)
    ensures x in vs && d'[x] < d[x] ==> Size(vs, d') < Size(vs, d)
  {
    if |vs| > 0 {
      SubsetCard(d'[vs[0]], d[vs[0]]);
      SizeShrinks(vs[1..], d, d', x);
      assert x in vs ==> x == vs[0] || x in vs[1..];
    }
  }

  /** A consistent arc stays consistent when `revise(x, y)` prunes x, as long as the
      arc does not point at x, or is the reverse arc (y, x): a word of y supported by
      some word of x supports that word in turn, so the word is not removed. */
  lemma ReviseKeepsArc(p: Puzzle, d: Domains, x: Variable, y: Variable, a: Arc)
    requires WellFormed(p) && Covers(p, d) && NodeConsistent(d)
    requires x in d && y in d && x != y
    requires a in p.overlaps && ArcConsistentArc(p, d, a)
    requires a.1 != x || a.0 == y
    ensures ArcConsistentArc(p, Revise(p, d, x, y).1, a)
  {
    var d' := Revise(p, d, x, y).1;
    assert OverlapOK(p, a);
    var (i, j) := p.overlaps[a];
    if a.1 != x {
      forall w | w in d'[a.0]
        ensures Supported(w, i, d'[a.1], j)
      {
        var w' :| w' in d[a.1] && Agrees(w, i, w', j);
        assert w' in d'[a.1];
      }
    } else if (x, y) in p.overlaps {
      assert OverlapOK(p, a);
      forall w | w in d'[a.0]
        ensures Supported(w, i, d'[a.1], j)
      {
        var w' :| w' in d[x] && Agrees(w, i, w', j);
        assert Agrees(w', j, w, i);
        assert w' in d'[x];
      }
    }
  }

  /** The arcs `(z, x)` re-queued after x's domain changed: every neighbour z of x except y. */
  function Requeue(p: Puzzle, x: Variable, y: Variable): (q: seq<Arc>)
    ensures forall a :: a in q <==> a.1 == x && a.0 in p.variables && a.0 != x && a.0 != y && (a.0, x) in p.overlaps
  {
    ArcsInto(Without(Neighbors(p, x), y), x)
  }

  /** The arcs `(z, x)` for the listed `z`, in order. */
  function {:induction false} ArcsInto(zs: seq<Variable>, x: Variable): (q: seq<Arc>)
    ensures forall a :: a in q <==> a.0 in zs && a.1 == x
  {
    if |zs| == 0 then []
    else
      assert forall v :: v in zs <==> v == zs[0] || v in zs[1..];
      [(zs[0], x)] + ArcsInto(zs[1..], x)
  }

  /** `set.remove(y)` on the neighbour list. */
  function {:induction false} Without(s: seq<Variable>, y: Variable): (r: seq<Variable>)
    ensures forall v :: v in r <==> v in s && v != y
  {
    if |s| == 0 then []
    else
      assert forall v :: v in s <==> v == s[0] || v in s[1..];
      if s[0] == y then Without(s[1..], y) else [s[0]] + Without(s[1..], y)
  }

  /** Every overlapping arc that was queued at the start or already consistent in
      the starting domains `d0` is still queued or consistent in `d`. */
  ghost predicate Pending(p: Puzzle, d0: Domains, q0: seq<Arc>, d: Domains, queue: seq<Arc>)
    requires Covers(p, d0) && Covers(p, d) && WellFormed(p)
  {
    forall a :: a in p.overlaps && (a in q0 || ArcConsistentArc(p, d0, a)) ==>
      a in queue || ArcConsistentArc(p, d, a)
  }

  /** One iteration of the AC-3 loop keeps `Pending`: the dequeued arc is made
      consistent by `revise`, and every arc it may break is re-queued. */
  lemma StepKeepsPending(p: Puzzle, d0: Domains, q0: seq<Arc>, d: Domains, queue: seq<Arc>)
    requires WellFormed(p) && Covers(p, d0) && Covers(p, d) && NodeConsistent(d)
    requires queue != [] && queue[0].0 in p.variables && queue[0].1 in p.variables && queue[0].0 != queue[0].1
    requires Pending(p, d0, q0, d, queue)
    ensures var r := Revise(p, d, queue[0].0, queue[0].1);
      Covers(p, r.1) &&
      Pending(p, d0, q0, r.1, if r.0 then queue[1..] + Requeue(p, queue[0].0, queue[0].1) else queue[1..])
  {
    var (x, y) := queue[0];
    var r := Revise(p, d, x, y);
    var next := if r.0 then queue[1..] + Requeue(p, x, y) else queue[1..];
    forall a | a in p.overlaps && (a in q0 || ArcConsistentArc(p, d0, a))
      ensures a in next || ArcConsistentArc(p, r.1, a)
    {
      if a == (x, y) {
      } else if a in queue[1..] {
      } else {
        assert a in queue || ArcConsistentArc(p, d, a);
        if !r.0 {
        } else if a.1 != x || a.0 == y {
          ReviseKeepsArc(p, d, x, y, a);
        } else {
          assert OverlapOK(p, a);
          assert a in Requeue(p, x, y);
        }
      }
    }
  }

  /** Queued arcs join two distinct variables of the puzzle. */
  predicate QueueOK(p: Puzzle, queue: seq<Arc>)
  {
    forall a :: a in queue ==> a.0 in p.variables && a.1 in p.variables && a.0 != a.1
  }

  /** `revise` keeps the domains covering, node-consistent and shrinking; only
      x's domain can become empty. */
  lemma ReviseShrinks(p: Puzzle, d0: Domains, d: Domains, x: Variable, y: Variable)
    requires Covers(p, d0) && Covers(p, d) && NodeConsistent(d) && Shrunk(d0, d)
    requires x in d && y in d && x != y
    requires forall v :: v in d && d[v] == {} ==> d0[v] == {}
    ensures var r := Revise(p, d, x, y);
      && Covers(p, r.1) && NodeConsistent(r.1) && Shrunk(d0, r.1)
      && (r.1[x] != {} ==> forall v :: v in r.1 && r.1[v] == {} ==> d0[v] == {})
      && (r.0 ==> d0[x] != {})
  {
  }

  /** `revise` keeps every word that some consistent assignment drawn from the
      domains uses: each such assignment is still drawn from the revised domains. */
  lemma ReviseKeepsSolutions(p: Puzzle, d: Domains, x: Variable, y: Variable)
    requires Covers(p, d) && x in p.variables && y in p.variables && x != y
    ensures forall s :: Consistent(p, s) && InDomains(p, d, s) ==> InDomains(p, Revise(p, d, x, y).1, s)
  {
    forall s | Consistent(p, s) && InDomains(p, d, s)
      ensures InDomains(p, Revise(p, d, x, y).1, s)
    {
      ReviseKeepsSolution(p, d, x, y, s);
    }
  }

  /** On domains where every overlapping arc is already consistent, `revise`
      removes nothing. */
  lemma ReviseAtFixpoint(p: Puzzle, d: Domains, x: Variable, y: Variable)
    requires x in d && y in d && x != y
    requires forall a :: a in p.overlaps ==> ArcConsistentArc(p, d, a)
    ensures Revise(p, d, x, y) == (false, d)
  {
    if (x, y) in p.overlaps {
      assert ArcConsistentArc(p, d, (x, y));
    }
  }

  /** What one `revise` inside the AC-3 loop keeps: the domain invariants, every
      consistent assignment drawn from the domains, and the domains themselves
      when every overlapping arc is already consistent. */
  lemma ReviseOutcome(p: Puzzle, d0: Domains, d: Domains, x: Variable, y: Variable)
    requires Covers(p, d0) && Covers(p, d) && NodeConsistent(d) && Shrunk(d0, d)
    requires x in p.variables && y in p.variables && x != y
    requires forall v :: v in d && d[v] == {} ==> d0[v] == {}
    ensures var r := Revise(p, d, x, y);
      && Covers(p, r.1) && NodeConsistent(r.1) && Shrunk(d0, r.1)
      && (r.1[x] != {} ==> forall v :: v in r.1 && r.1[v] == {} ==> d0[v] == {})
      && (r.0 ==> d0[x] != {})
      && ((forall a :: a in p.overlaps ==> ArcConsistentArc(p, d, a)) ==> r == (false, d))
      && (forall s :: Consistent(p, s) && InDomains(p, d, s) ==> InDomains(p, r.1, s))
  {
    ReviseShrinks(p, d0, d, x, y);
    ReviseKeepsSolutions(p, d, x, y);
    if forall a :: a in p.overlaps ==> ArcConsistentArc(p, d, a) {
      ReviseAtFixpoint(p, d, x, y);
    }
  }

  /** One iteration of the AC-3 loop: revise the front arc; stop with `emptied`
      when that leaves x without words, otherwise re-queue x's other neighbours if
      x's domain changed. Either the total domain size or the queue length drops. */
  method Ac3Step(p: Puzzle, d0: Domains, ghost q0: seq<Arc>, d: Domains, queue: seq<Arc>)
    returns (emptied: bool, d': Domains, queue': seq<Arc>)
    requires WellFormed(p) && Covers(p, d0) && Covers(p, d) && NodeConsistent(d) && Shrunk(d0, d)
    requires queue != [] && QueueOK(p, queue) && Pending(p, d0, q0, d, queue)
    requires forall v :: v in d && d[v] == {} ==> d0[v] == {}
    ensures Covers(p, d') && NodeConsistent(d') && Shrunk(d0, d')
    ensures emptied ==> exists v :: v in d' && d'[v] == {} && d0[v] != {}
    ensures (forall a :: a in p.overlaps ==> ArcConsistentArc(p, d, a)) ==> !emptied && d' == d
    ensures forall s :: Consistent(p, s) && InDomains(p, d, s) ==> InDomains(p, d', s)
    ensures !emptied ==>
      && QueueOK(p, queue')
      && (forall v :: v in d' && d'[v] == {} ==> d0[v] == {})
      && Pending(p, d0, q0, d', queue')
      && (Size(p.variables, d') < Size(p.variables, d)
          || (Size(p.variables, d') == Size(p.variables, d) && |queue'| < |queue|))
  {
    var (x, y) := queue[0];
    assert (x, y) in queue;
    StepKeepsPending(p, d0, q0, d, queue);
    ReviseOutcome(p, d0, d, x, y);
    var r := Revise(p, d, x, y);
    d' := r.1;
    if r.0 {
      SizeShrinks(p.variables, d, r.1, x);
      if |r.1[x]| == 0 {
        assert x in d' && d'[x] == {} && d0[x] != {};
        return true, d', [];
      }
      queue' := queue[1..] + Requeue(p, x, y);
      RequeueKeepsQueueOK(p, queue, x, y);
    } else {
      queue' := queue[1..];
    }
    emptied := false;
  }

  /** Dropping the front arc and re-queueing arcs into x keeps every queued arc a
      pair of distinct puzzle variables. */
  lemma RequeueKeepsQueueOK(p: Puzzle, queue: seq<Arc>, x: Variable, y: Variable)
    requires queue != [] && QueueOK(p, queue) && x in p.variables
    ensures QueueOK(p, queue[1..]) && QueueOK(p, queue[1..] + Requeue(p, x, y))
  {
    assert forall a :: a in queue[1..] ==> a in queue;
  }

  /** The default queue holds every overlapping arc. */
  lemma SeededHoldsOverlaps(p: Puzzle, q0: seq<Arc>)
    requires WellFormed(p)
    requires forall a :: a in q0 <==> a.0 in p.variables && a.1 in p.variables && a.0 != a.1
    ensures forall a :: a in p.overlaps ==> a in q0
  {
    forall a | a in p.overlaps
      ensures a in q0
    {
      assert OverlapOK(p, a);
    }
  }

  /** `ac3(arcs)`: `None` seeds the queue with every ordered pair of distinct
      variables. The result is false exactly when a `revise` emptied a domain;
      otherwise every overlapping arc that was queued or already consistent on
      entry is consistent on exit (with the default queue: every arc). Only words
      that no consistent assignment drawn from the domains uses are removed, so a
      false result means there is no such assignment. False comes only from a
      domain that `revise` emptied, never from one already empty on entry. On
      domains where every overlapping arc is already consistent, the result is
      true and nothing changes. */
  method Ac3(p: Puzzle, d: Domains, arcs: Option<seq<Arc>>) returns (ok: bool, d': Domains)
    requires WellFormed(p) && Covers(p, d) && NodeConsistent(d)
    requires arcs.Some? ==> forall a :: a in arcs.value ==> a.0 in p.variables && a.1 in p.variables && a.0 != a.1
    ensures Covers(p, d') && NodeConsistent(d') && Shrunk(d, d')
    ensures !ok ==> exists v :: v in d' && d'[v] == {} && d[v] != {}
    ensures (forall a :: a in p.overlaps ==> ArcConsistentArc(p, d, a)) ==> ok && d' == d
    ensures ok ==> forall v :: v in d' && d'[v] == {} ==> d[v] == {}
    ensures forall s :: Consistent(p, s) && InDomains(p, d, s) ==> InDomains(p, d', s)
    ensures !ok ==> forall s :: Consistent(p, s) ==> !InDomains(p, d, s)
    ensures ok && arcs.None? ==> forall a :: a in p.overlaps ==> ArcConsistentArc(p, d', a)
    ensures ok && arcs.Some? ==>
      forall a :: a in p.overlaps && (a in arcs.value || ArcConsistentArc(p, d, a)) ==> ArcConsistentArc(p, d', a)
  {
    var queue: seq<Arc>;
    if arcs.None? {
      queue := SeedArcs(p.variables);
    } else {
      queue := arcs.value;
    }
    ghost var q0 := queue;
    d' := d;
    while queue != []
      invariant Covers(p, d') && NodeConsistent(d') && Shrunk(d, d')
      invariant QueueOK(p, queue)
      invariant forall v :: v in d' && d'[v] == {} ==> d[v] == {}
      invariant Pending(p, d, q0, d', queue)
      invariant forall s :: Consistent(p, s) && InDomains(p, d, s) ==> InDomains(p, d', s)
      invariant (forall a :: a in p.overlaps ==> ArcConsistentArc(p, d, a)) ==> d' == d
      decreases Size(p.variables, d'), |queue|
    {
      var emptied;
      emptied, d', queue := Ac3Step(p, d, q0, d', queue);
      if emptied {
        return false, d';
      }
    }
    ok := true;
    if arcs.None? {
      SeededHoldsOverlaps(p, q0);
    }
  }
}

=== FILE: crossword.dfy ===
/** Data model of the crossword constraint-satisfaction problem and the pieces of
    `CrosswordCreator` that work on one domain store: node consistency, `revise`,
    `assignment_complete` and `consistent`.

    The puzzle object itself (grid parsing, `Variable`, `overlaps`, `neighbors`)
    lives in a module that is not part of this model; it is taken here as the
    value `Puzzle`, with the variable set given in its iteration order. */
module Crossword {

  datatype Direction = Across | Down

  /** One slot of the grid; equality is by all four fields. */
  datatype Variable = Variable(direction: Direction, i: int, j: int, length: nat)

  type Word = string

  type Arc = (Variable, Variable)

  /** `overlaps[(x, y)] == (ix, iy)` means character `ix` of x's word must equal
      character `iy` of y's word; a pair that is not a key has no shared cell
      (Python's `None`). */
  datatype Puzzle = Puzzle(variables: seq<Variable>, overlaps: map<Arc, (nat, nat)>, words: set<Word>)

  /** Candidate words per variable. */
  type Domains = map<Variable, set<Word>>

  /** Partial map from variables to chosen words. */
  type Assignment = map<Variable, Word>

  /** What the grid geometry guarantees about one overlap: it joins two distinct
      variables of the puzzle, is recorded in both directions with swapped indices,
      and lies inside both words. */
  predicate OverlapOK(p: Puzzle, a: Arc)
    requires a in p.overlaps
  {
    && a.0 in p.variables && a.1 in p.variables && a.0 != a.1
    && (a.1, a.0) in p.overlaps
    && p.overlaps[(a.1, a.0)] == (p.overlaps[a].1, p.overlaps[a].0)
    && p.overlaps[a].0 < a.0.length
    && p.overlaps[a].1 < a.1.length
  }

  /** No variable is listed twice (the source keeps variables in a set). */
  predicate DistinctVariables(vs: seq<Variable>)
  {
    forall k, l :: 0 <= k < l < |vs| ==> vs[k] != vs[l]
  }

  /** A puzzle lists every variable once and all its overlaps are well formed.
      The trigger is deliberately the per-overlap predicate: instantiating on
      membership alone would chase (x, y) -> (y, x) -> (x, y) without end. */
  predicate WellFormed(p: Puzzle)
  {
    && DistinctVariables(p.variables)
    && (forall a {:trigger OverlapOK(p, a)} :: a in p.overlaps ==> OverlapOK(p, a))
  }

  /** The domain store is defined on exactly the puzzle's variables. */
  ghost predicate Covers(p: Puzzle, d: Domains)
  {
    forall v :: v in d <==> v in p.variables
  }

  /** Every candidate word has its variable's length (the unary constraint). */
  predicate NodeConsistent(d: Domains)
  {
    forall v, w :: v in d && w in d[v] ==> |w| == v.length
  }

  /** Every domain is a subset of the dictionary. */
  predicate WithinWords(p: Puzzle, d: Domains)
  {
    forall v :: v in d ==> d[v] <= p.words
  }

  /** Domains `d'` are `d` with some words removed and nothing added. */
  predicate Shrunk(d: Domains, d': Domains)
  {
    d'.Keys == d.Keys && forall v :: v in d ==> d'[v] <= d[v]
  }

  /** `s` gives every puzzle variable a word from that variable's domain in `d`. */
  predicate InDomains(p: Puzzle, d: Domains, s: Assignment)
  {
    forall v :: v in p.variables ==> v in s && v in d && s[v] in d[v]
  }

  /** Character `i` of `w` equals character `j` of `w'`. */
  predicate Agrees(w: Word, i: nat, w': Word, j: nat)
  {
    i < |w| && j < |w'| && w[i] == w'[j]
  }

  /** Some word of `ws` matches `w` at the overlap `(i, j)`. */
  predicate Supported(w: Word, i: nat, ws: set<Word>, j: nat)
  {
    exists w' :: w' in ws && Agrees(w, i, w', j)
  }

  /** Arc `(x, y)` is consistent in `d`: with no overlap it holds trivially,
      otherwise every word of x's domain has a matching word in y's domain. */
  predicate ArcConsistentArc(p: Puzzle, d: Domains, a: Arc)
  {
    a in p.overlaps && a.0 in d && a.1 in d ==>
      forall w :: w in d[a.0] ==> Supported(w, p.overlaps[a].0, d[a.1], p.overlaps[a].1)
  }

  /** `Crossword.neighbors(x)`: the variables that share a cell with `x`, in the
      puzzle's variable order. */
  function Neighbors(p: Puzzle, x: Variable): (ns: seq<Variable>)
    ensures forall v :: v in ns <==> v in p.variables && v != x && (v, x) in p.overlaps
    ensures |ns| <= |p.variables|
  {
    NeighborsIn(p.variables, p.overlaps, x)
  }

  function {:induction false} NeighborsIn(vs: seq<Variable>, overlaps: map<Arc, (nat, nat)>, x: Variable): (ns: seq<Variable>)
    ensures forall v :: v in ns <==> v in vs && v != x && (v, x) in overlaps
    ensures |ns| <= |vs|
  {
    if |vs| == 0 then []
    else
      var rest := NeighborsIn(vs[1..], overlaps, x);
      assert forall v :: v in vs <==> v == vs[0] || v in vs[1..];
      if vs[0] != x && (vs[0], x) in overlaps then [vs[0]] + rest else rest
  }

  /** The domain store before any pruning: every variable gets a copy of the dictionary. */
  function InitialDomains(p: Puzzle): (d: Domains)
    ensures Covers(p, d)
    ensures WithinWords(p, d)
    ensures forall v :: v in d ==> d[v] == p.words
  {
    map v | v in p.variables :: p.words
  }

  /** `enforce_node_consistency`: drop from every domain the words whose length
      differs from the variable's length. */
  function EnforceNodeConsistency(p: Puzzle, d: Domains): (d': Domains)
    requires Covers(p, d)
    ensures Covers(p, d')
    ensures NodeConsistent(d')
    ensures Shrunk(d, d')
    ensures forall v, w :: v in d && w in d[v] && |w| == v.length ==> w in d'[v]
  {
    map v | v in d :: set w | w in d[v] && |w| == v.length
  }

  /** `revise(x, y)`: remove from x's domain every word with no support in y's
      domain; the boolean says whether some word was removed. */
  function Revise(p: Puzzle, d: Domains, x: Variable, y: Variable): (r: (bool, Domains))
    requires x in d && y in d && x != y
    ensures r.1.Keys == d.Keys
    ensures forall v :: v in d && v != x ==> r.1[v] == d[v]
    ensures r.1[x] <= d[x]
    ensures (x, y) !in p.overlaps ==> !r.0 && r.1 == d
    ensures (x, y) in p.overlaps ==>
      && (r.0 <==> exists w :: w in d[x] && !Supported(w, p.overlaps[(x, y)].0, d[y], p.overlaps[(x, y)].1))
      && (forall w :: w in d[x] ==>
            (w in r.1[x] <==> Supported(w, p.overlaps[(x, y)].0, d[y], p.overlaps[(x, y)].1)))
    ensures !r.0 ==> r.1 == d
    ensures r.0 ==> r.1[x] < d[x]
    ensures ArcConsistentArc(p, r.1, (x, y))
  {
    if (x, y) !in p.overlaps then (false, d)
    else
      var (i, j) := p.overlaps[(x, y)];
      var removed := set w | w in d[x] && !Supported(w, i, d[y], j);
      assert forall w :: w in d[x] ==> w in removed || Supported(w, i, d[y], j);
      if removed == {} then (false, d)
      else (true, d[x := d[x] - removed])
  }

  /** A consistent assignment's word for `x` is supported by its word for `y`, so
      `revise` never removes a word a consistent assignment uses. */
  lemma ReviseKeepsSolution(p: Puzzle, d: Domains, x: Variable, y: Variable, s: Assignment)
    requires x in d && y in d && x != y
    requires Consistent(p, s) && x in s && y in s && s[x] in d[x] && s[y] in d[y]
    ensures s[x] in Revise(p, d, x, y).1[x]
  {
    if (x, y) in p.overlaps {
      assert Supported(s[x], p.overlaps[(x, y)].0, d[y], p.overlaps[(x, y)].1);
    }
  }

  /** `assignment_complete`: scan the variables in order; every one must be assigned
      a dictionary word. */
  function AssignmentComplete(p: Puzzle, a: Assignment): (r: bool)
    ensures r <==> forall v :: v in p.variables ==> v in a && a[v] in p.words
  {
    CompleteFrom(p.variables, p.words, a)
  }

  function {:induction false} CompleteFrom(vs: seq<Variable>, words: set<Word>, a: Assignment): (r: bool)
    ensures r <==> forall k :: 0 <= k < |vs| ==> vs[k] in a && a[vs[k]] in words
  {
    if |vs| == 0 then true
    else if vs[0] !in a then false
    else if a[vs[0]] !in words then false
    else CompleteFrom(vs[1..], words, a)
  }

  /** The pairwise check `consistent` makes for `v` against another assigned `u`:
      different words, and agreement at the overlap when there is one. */
  predicate PairConsistent(p: Puzzle, a: Assignment, v: Variable, u: Variable)
    requires v in a && u in a
  {
    v == u ||
    (a[v] != a[u] &&
     ((v, u) in p.overlaps ==> Agrees(a[v], p.overlaps[(v, u)].0, a[u], p.overlaps[(v, u)].1)))
  }

  /** The three constraints an assignment must meet: every word has its variable's
      length, no two distinct variables share a word, and overlapping assigned
      variables agree on their shared cell. */
  predicate Consistent(p: Puzzle, a: Assignment)
  {
    && (forall v :: v in a ==> |a[v]| == v.length)
    && (forall v, u :: v in a && u in a && v != u ==> a[v] != a[u])
    && (forall v, u :: v in a && u in a && v != u && (v, u) in p.overlaps ==>
          Agrees(a[v], p.overlaps[(v, u)].0, a[u], p.overlaps[(v, u)].1))
  }

  /** `consistent`: the nested scan over the assignment's items, returning false at
      the first violated check. */
  method CheckConsistent(p: Puzzle, a: Assignment) returns (ok: bool)
    ensures ok <==> Consistent(p, a)
  {
    var outer := a.Keys;
    while outer != {}
      invariant outer <= a.Keys
      invariant forall v :: v in a && v !in outer ==> |a[v]| == v.length
      invariant forall v, u :: v in a && v !in outer && u in a ==> PairConsistent(p, a, v, u)
      decreases outer
    {
      var v :| v in outer;
      if v.length != |a[v]| {
        return false;
      }
      var inner := a.Keys;
      while inner != {}
        invariant inner <= a.Keys
        invariant forall u :: u in a && u !in inner ==> PairConsistent(p, a, v, u)
        decreases inner
      {
        var u :| u in inner;
        if v != u {
          if a[v] == a[u] {
            return false;
          }
          if (v, u) in p.overlaps {
            var (i, j) := p.overlaps[(v, u)];
            if !Agrees(a[v], i, a[u], j) {
              return false;
            }
          }
        }
        inner := inner - {u};
      }
      outer := outer - {v};
    }
    return true;
  }

  /** The empty assignment is consistent. */
  lemma EmptyAssignmentConsistent(p: Puzzle)
    ensures Consistent(p, map[])
  {
  }
}

=== FILE: degrees.dfy ===
/** Degrees of separation: co-star neighbourhoods, name lookup and the
    breadth-first `shortest_path` search over (movie, person) pairs.

    The CSV loading fills three maps; they are taken here as the value
    `Database`. The search's `Node` and `QueueFrontier` helpers are not part of
    this model: a node is the record `Node` and the frontier a sequence used as a
    FIFO queue. */
module Degrees {

  import opened Wrappers

  type PersonId = string
  type MovieId = string

  /** A `(movie_id, person_id)` pair: the person starred in the movie. */
  type Star = (MovieId, PersonId)

  /** `names`: lower-cased name to ids; `people`: id to the person's movies;
      `movies`: id to the movie's stars. */
  datatype Database = Database(
    names: map<string, set<PersonId>>,
    people: map<PersonId, set<MovieId>>,
    movies: map<MovieId, set<PersonId>>)

  /** The two star maps agree: a person's movie lists the person among its stars
      and the other way round. */
  predicate Linked(db: Database)
  {
    && (forall p, m :: p in db.people && m in db.people[p] ==> m in db.movies && p in db.movies[m])
    && (forall m, q :: m in db.movies && q in db.movies[m] ==> q in db.people && m in db.people[q])
  }

  /** `s` is a (movie, star) pair of the database. */
  predicate IsStar(db: Database, s: Star)
  {
    s.0 in db.movies && s.1 in db.movies[s.0]
  }

  /** Every (movie, star) pair of the database. */
  ghost function StarPairs(db: Database): set<Star>
  {
    set m, q | m in db.movies && q in db.movies[m] :: (m, q)
  }

  lemma StarInPairs(db: Database, s: Star)
    requires IsStar(db, s)
    ensures s in StarPairs(db)
  {
    var (m, q) := s;
    assert (m, q) in StarPairs(db);
  }

  /** `neighbors_for_person(p)`: every `(m, q)` with `m` one of p's movies and `q` one
      of its stars, p included. */
  function NeighborsForPerson(db: Database, p: PersonId): (ns: set<Star>)
    requires Linked(db) && p in db.people
    ensures forall s :: s in ns <==> s.0 in db.people[p] && s.0 in db.movies && s.1 in db.movies[s.0]
    ensures forall m :: m in db.people[p] ==> (m, p) in ns
    ensures forall s :: s in ns ==> IsStar(db, s) && s.1 in db.people && s.0 in db.people[s.1]
  {
    set m, q | m in db.people[p] && q in db.movies[m] :: (m, q)
  }

  /** ASCII lower-casing of one character. */
  function LowerChar(c: char): (r: char)
  {
    if 'A' <= c <= 'Z' then (c as int - 'A' as int + 'a' as int) as char else c
  }

  /** `str.lower()` on ASCII letters. */
  function Lower(s: string): (r: string)
    ensures |r| == |s|
    ensures forall k :: 0 <= k < |s| ==> r[k] == LowerChar(s[k])
  {
    seq(|s|, k requires 0 <= k < |s| => LowerChar(s[k]))
  }

  /** Lower-casing is idempotent, so a name typed in any case finds the same key. */
  lemma LowerIdempotent(s: string)
    ensures Lower(Lower(s)) == Lower(s)
  {
    assert forall k :: 0 <= k < |s| ==> LowerChar(LowerChar(s[k])) == LowerChar(s[k]);
  }


  /** Co-starring is symmetric: q appears among p's neighbours through movie m
      exactly when p appears among q's through the same movie. */
  lemma NeighborsSymmetric(db: Database, p: PersonId, q: PersonId, m: MovieId)
    requires Linked(db) && p in db.people && q in db.people
    ensures (m, q) in NeighborsForPerson(db, p) <==> (m, p) in NeighborsForPerson(db, q)
  {
  }

  /** The ids stored under the lower-cased name (`names.get(name.lower(), set())`). */
  function IdsFor(db: Database, name: string): set<PersonId>
  {
    if Lower(name) in db.names then db.names[Lower(name)] else {}
  }

  /** `person_id_for_name`. `choice` is what the user types when the name is
      ambiguous; `None` stands for an input that raised `ValueError`. */
  method PersonIdForName(db: Database, name: string, choice: Option<PersonId>) returns (r: Option<PersonId>)
    ensures IdsFor(db, name) == {} ==> r == None
    ensures |IdsFor(db, name)| == 1 ==> r.Some? && IdsFor(db, name) == {r.value}
    ensures |IdsFor(db, name)| > 1 ==> (r.Some? <==> choice.Some? && choice.value in IdsFor(db, name))
    ensures r.Some? ==> r.value in IdsFor(db, name) && (|IdsFor(db, name)| > 1 ==> r == choice)
  {
    var ids := IdsFor(db, name);
    if |ids| == 0 {
      return None;
    } else if |ids| > 1 {
      if choice.Some? && choice.value in ids {
        return choice;
      }
      return None;
    } else {
      var id :| id in ids;
      assert |ids - {id}| == 0;
      assert ids == {id} by {
        assert ids - {id} == {};
      }
      return Some(id);
    }
  }

  /** A search node: the pair reached, the pair it was reached from, and its depth. */
  datatype Node = Node(state: Star, parent: Star, action: int)

  function States(ns: seq<Node>): (r: seq<Star>)
    ensures |r| == |ns| && forall k :: 0 <= k < |ns| ==> r[k] == ns[k].state
  {
    seq(|ns|, k requires 0 <= k < |ns| => ns[k].state)
  }

  /** The history `node_hist`: one `(state, parent)` entry per removal. */
  type History = seq<(Star, Star)>

  /** The pairs of the history's entries, in removal order. */
  function Firsts(hist: History): (r: seq<Star>)
    ensures |r| == |hist| && forall k :: 0 <= k < |hist| ==> r[k] == hist[k].0
  {
    seq(|hist|, k requires 0 <= k < |hist| => hist[k].0)
  }

  /** The expansion step: a node for every neighbour pair not yet removed from
      the frontier, with the expanded node as parent and one more step of depth. */
  method Expand(ns: set<Star>, node: Node, seen: seq<Star>) returns (pushes: seq<Node>)
    ensures forall k :: 0 <= k < |pushes| ==>
      pushes[k].state in ns && pushes[k].state !in seen &&
      pushes[k].parent == node.state && pushes[k].action == node.action + 1
    ensures forall s :: s in ns && s !in seen ==> s in States(pushes)
  {
    pushes := [];
    var rest := ns;
    while rest != {}
      invariant rest <= ns
      invariant forall k :: 0 <= k < |pushes| ==>
        pushes[k].state in ns && pushes[k].state !in seen &&
        pushes[k].parent == node.state && pushes[k].action == node.action + 1
      invariant forall s :: s in ns && s !in rest && s !in seen ==> s in States(pushes)
      decreases rest
    {
      var s :| s in rest;
      if s !in seen {
        var grown := pushes + [Node(s, node.state, node.action + 1)];
        assert States(grown) == States(pushes) + [s];
        pushes := grown;
      }
      rest := rest - {s};
    }
  }

  // ---------------------------------------------------------------------------
  // Path reconstruction as written: a single forward pass over the history.

  /** Scanning forward only, keep each entry whose pair is the current parent,
      move to that entry's parent, and stop after an entry whose parent person is
      the source. */
  function Reconstruct(hist: History, parent: Star, source: PersonId): (r: seq<Star>)
    ensures forall s :: s in r ==> exists h :: h in hist && h.0 == s
  {
    if |hist| == 0 then []
    else
      assert forall h :: h in hist[1..] ==> h in hist;
      if hist[0].0 == parent then
        [hist[0].0] + (if hist[0].1.1 == source then [] else Reconstruct(hist[1..], hist[0].1, source))
      else Reconstruct(hist[1..], parent, source)
  }

  function Reverse(s: seq<Star>): (r: seq<Star>)
    ensures |r| == |s| && forall k :: 0 <= k < |s| ==> r[k] == s[|s| - 1 - k]
  {
    seq(|s|, k requires 0 <= k < |s| => s[|s| - 1 - k])
  }

  /** The list returned on reaching `goal` with the forward pass: the goal's pair
      followed by the reconstructed entries, reversed. */
  function PathTo(hist: History, goal: Node, source: PersonId): (r: seq<Star>)
    ensures |r| > 0 && r[|r| - 1] == goal.state
    ensures forall k :: 0 <= k < |r| ==> r[k] == goal.state || exists h :: h in hist && h.0 == r[k]
  {
    var back := [goal.state] + Reconstruct(hist, goal.parent, source);
    assert forall k :: 1 <= k < |back| ==> back[k] in Reconstruct(hist, goal.parent, source);
    Reverse(back)
  }

  // ---------------------------------------------------------------------------
  // Path reconstruction following parent links back through the whole history.

  /** Each entry's parent is either a pair of the source or the pair of an earlier
      entry: the parent was removed before its child was added. */
  predicate HistLinked(source: PersonId, hist: History)
  {
    forall i :: 0 <= i < |hist| ==> hist[i].1.1 == source || hist[i].1 in Firsts(hist[..i])
  }

  /** Each entry is a real pair whose movie also lists the parent's person. */
  predicate HistStars(db: Database, hist: History)
  {
    forall i :: 0 <= i < |hist| ==> IsStar(db, hist[i].0) && hist[i].1.1 in db.movies[hist[i].0.0]
  }

  /** `path` is a chain of co-stars from `source`: every step is a (movie, star)
      pair, the first movie lists the source, and each later movie lists the
      previous step's person. */
  predicate Chain(db: Database, source: PersonId, path: seq<Star>)
  {
    && |path| > 0
    && (forall k :: 0 <= k < |path| ==> IsStar(db, path[k]))
    && path[0].0 in db.movies && source in db.movies[path[0].0]
    && (forall k :: 0 < k < |path| ==> path[k].0 in db.movies && path[k - 1].1 in db.movies[path[k].0])
  }

  /** The first position of `x` in `xs`. */
  function FirstIndex(xs: seq<Star>, x: Star): (j: nat)
    requires x in xs
    ensures j < |xs| && xs[j] == x && forall k :: 0 <= k < j ==> xs[k] != x
  {
    if xs[0] == x then 0 else 1 + FirstIndex(xs[1..], x)
  }

  /** The path ending at entry `i`: walk to the first entry holding its parent,
      until an entry whose parent person is the source. */
  function TraceFrom(hist: History, source: PersonId, i: nat): (r: seq<Star>)
    requires HistLinked(source, hist) && i < |hist|
    ensures |r| > 0 && r[|r| - 1] == hist[i].0
    decreases i
  {
    if hist[i].1.1 == source then [hist[i].0]
    else
      var j := FirstIndex(Firsts(hist[..i]), hist[i].1);
      TraceFrom(hist, source, j) + [hist[i].0]
  }

  /** The parent walk always yields a co-star chain from the source. */
  lemma {:induction false} TraceIsChain(db: Database, hist: History, source: PersonId, i: nat)
    requires HistLinked(source, hist) && HistStars(db, hist) && i < |hist|
    ensures Chain(db, source, TraceFrom(hist, source, i))
    decreases i
  {
    if hist[i].1.1 != source {
      var j := FirstIndex(Firsts(hist[..i]), hist[i].1);
      assert hist[j].0 == hist[i].1;
      TraceIsChain(db, hist, source, j);
      var pre := TraceFrom(hist, source, j);
      var r := pre + [hist[i].0];
      assert r[|r| - 2] == hist[i].1;
      assert forall k :: 0 <= k < |pre| ==> r[k] == pre[k];
    }
  }

  // ---------------------------------------------------------------------------
  // The breadth-first search.

  /** Frontier nodes whose pair was already removed once (repeats). */
  function StaleCount(ns: seq<Node>, seen: set<Star>): nat
  {
    if |ns| == 0 then 0 else (if ns[0].state in seen then 1 else 0) + StaleCount(ns[1..], seen)
  }

  lemma {:induction false} StaleConcat(a: seq<Node>, b: seq<Node>, seen: set<Star>)
    ensures StaleCount(a + b, seen) == StaleCount(a, seen) + StaleCount(b, seen)
  {
    if |a| > 0 {
      assert (a + b)[0] == a[0];
      assert (a + b)[1..] == a[1..] + b;
      StaleConcat(a[1..], b, seen);
    } else {
      assert a + b == b;
    }
  }

  lemma {:induction false} NoStale(b: seq<Node>, seen: set<Star>)
    requires forall k :: 0 <= k < |b| ==> b[k].state !in seen
    ensures StaleCount(b, seen) == 0
  {
    if |b| > 0 {
      NoStale(b[1..], seen);
    }
  }

  /** The search's termination measure drops at every removal: a fresh pair leaves
      the set of unremoved pairs, a repeated one leaves the frontier's repeats. */
  lemma MeasureDrops(db: Database, before: set<Star>, whole: seq<Node>, pushes: seq<Node>)
    requires whole != [] && IsStar(db, whole[0].state)
    requires forall k :: 0 <= k < |pushes| ==> pushes[k].state !in before + {whole[0].state}
    ensures whole[0].state in before ==>
      StaleCount(whole[1..] + pushes, before + {whole[0].state}) < StaleCount(whole, before)
    ensures whole[0].state !in before ==>
      |StarPairs(db) - (before + {whole[0].state})| < |StarPairs(db) - before|
  {
    var x := whole[0].state;
    if x in before {
      assert before + {x} == before;
      StaleConcat(whole[1..], pushes, before);
      NoStale(pushes, before);
    } else {
      StarInPairs(db, x);
      assert StarPairs(db) - (before + {x}) == (StarPairs(db) - before) - {x};
    }
  }

  /** The initial frontier: one node per neighbour pair of the source, with the
      placeholder parent `("", source)` and depth 0. */
  method Seed(first: set<Star>, source: PersonId) returns (frontier: seq<Node>)
    ensures forall k :: 0 <= k < |frontier| ==>
      frontier[k].state in first && frontier[k].parent == ("", source) && frontier[k].action == 0
    ensures forall n :: n in first ==> n in States(frontier)
  {
    frontier := [];
    var rest := first;
    while rest != {}
      invariant rest <= first
      invariant forall k :: 0 <= k < |frontier| ==>
        frontier[k].state in first && frontier[k].parent == ("", source) && frontier[k].action == 0
      invariant forall n :: n in first && n !in rest ==> n in States(frontier)
      decreases rest
    {
      var s :| s in rest;
      var grown := frontier + [Node(s, ("", source), 0)];
      assert States(grown) == States(frontier) + [s];
      frontier := grown;
      rest := rest - {s};
    }
  }

  /** A frontier node is a real pair whose movie lists its parent's person, and its
      parent is a pair of the source or was already removed. */
  predicate NodeOK(db: Database, source: PersonId, hist: History, n: Node)
  {
    && IsStar(db, n.state) && n.parent.1 in db.movies[n.state.0]
    && (n.parent.1 == source || n.parent in Firsts(hist))
  }

  lemma SeedNodesOK(db: Database, source: PersonId, frontier: seq<Node>)
    requires Linked(db) && source in db.people
    requires forall k :: 0 <= k < |frontier| ==>
      frontier[k].state in NeighborsForPerson(db, source) && frontier[k].parent == ("", source)
    ensures forall k :: 0 <= k < |frontier| ==> NodeOK(db, source, [], frontier[k])
  {
  }

  /** Recording a well-formed node keeps the history linked and its pairs real;
      nodes that were well-formed stay so. */
  lemma HistGrows(db: Database, source: PersonId, hist: History, n: Node, others: seq<Node>)
    requires HistLinked(source, hist) && HistStars(db, hist) && NodeOK(db, source, hist, n)
    requires forall k :: 0 <= k < |others| ==> NodeOK(db, source, hist, others[k])
    ensures HistLinked(source, hist + [(n.state, n.parent)])
    ensures HistStars(db, hist + [(n.state, n.parent)])
    ensures forall k :: 0 <= k < |others| ==> NodeOK(db, source, hist + [(n.state, n.parent)], others[k])
  {
    var h := hist + [(n.state, n.parent)];
    assert Firsts(h) == Firsts(hist) + [n.state];
    assert h[..|hist|] == hist;
    forall i | 0 <= i < |hist| ensures h[..i] == hist[..i] {
    }
  }

  /** The nodes pushed by an expansion are well-formed once their parent is
      recorded. */
  lemma PushesOK(db: Database, source: PersonId, hist: History, node: Node, pushes: seq<Node>)
    requires Linked(db) && node.state.1 in db.people && node.state in Firsts(hist)
    requires forall k :: 0 <= k < |pushes| ==>
      pushes[k].state in NeighborsForPerson(db, node.state.1) && pushes[k].parent == node.state
    ensures forall k :: 0 <= k < |pushes| ==> NodeOK(db, source, hist, pushes[k])
  {
  }

  lemma ConcatNodesOK(db: Database, source: PersonId, hist: History, xs: seq<Node>, ys: seq<Node>)
    requires forall k :: 0 <= k < |xs| ==> NodeOK(db, source, hist, xs[k])
    requires forall k :: 0 <= k < |ys| ==> NodeOK(db, source, hist, ys[k])
    ensures forall k :: 0 <= k < |xs + ys| ==> NodeOK(db, source, hist, (xs + ys)[k])
  {
    forall k | 0 <= k < |xs + ys|
      ensures NodeOK(db, source, hist, (xs + ys)[k])
    {
      if k < |xs| {
        assert (xs + ys)[k] == xs[k];
      } else {
        assert (xs + ys)[k] == ys[k - |xs|];
      }
    }
  }

  /** Every neighbour of the source, and of every removed pair's person, has been
      removed or is waiting in the frontier. */
  ghost predicate Closed(db: Database, first: set<Star>, seen: seq<Star>, frontier: seq<Node>)
    requires Linked(db)
  {
    && (forall s :: s in seen ==> s.1 in db.people)
    && (forall n :: n in first ==> n in seen || n in States(frontier))
    && (forall s, n :: s in seen && n in NeighborsForPerson(db, s.1) ==> n in seen || n in States(frontier))
  }

  /** Removing the front node and enqueueing its unseen neighbours keeps `Closed`. */
  lemma ExpandKeepsClosed(db: Database, first: set<Star>, seen: seq<Star>, frontier: seq<Node>, pushes: seq<Node>)
    requires Linked(db) && frontier != [] && frontier[0].state.1 in db.people
    requires Closed(db, first, seen, frontier)
    requires forall n :: n in NeighborsForPerson(db, frontier[0].state.1) && n !in seen + [frontier[0].state] ==> n in States(pushes)
    ensures Closed(db, first, seen + [frontier[0].state], frontier[1..] + pushes)
  {
    var seen' := seen + [frontier[0].state];
    var rest := frontier[1..] + pushes;
    assert States(frontier) == [frontier[0].state] + States(frontier[1..]);
    assert States(rest) == States(frontier[1..]) + States(pushes);
    forall n | n in seen || n in States(frontier)
      ensures n in seen' || n in States(rest)
    {
    }
  }

  /** The pairs removed so far, as a set. */
  ghost function SetOf(seen: seq<Star>): set<Star>
  {
    set s | s in seen
  }

  /** What the search keeps true between removals. */
  ghost predicate SearchInv(db: Database, source: PersonId, first: set<Star>, target: PersonId,
                            frontier: seq<Node>, hist: History, seen: seq<Star>)
    requires Linked(db)
  {
    && seen == Firsts(hist)
    && HistLinked(source, hist) && HistStars(db, hist)
    && (forall k :: 0 <= k < |frontier| ==> NodeOK(db, source, hist, frontier[k]))
    && (forall s :: s in seen ==> s.1 != target)
    && Closed(db, first, seen, frontier)
  }

  /** One removal of a non-target node followed by its expansion. The removed pair
      joins `seen` and the history; the measure `(unremoved pairs, repeats in the
      frontier)` drops lexicographically. */
  method Advance(db: Database, source: PersonId, first: set<Star>, target: PersonId,
                 frontier: seq<Node>, hist: History, seen: seq<Star>)
    returns (frontier': seq<Node>, hist': History, seen': seq<Star>)
    requires Linked(db) && frontier != [] && frontier[0].state.1 != target
    requires SearchInv(db, source, first, target, frontier, hist, seen)
    ensures SearchInv(db, source, first, target, frontier', hist', seen')
    ensures || |StarPairs(db) - SetOf(seen')| < |StarPairs(db) - SetOf(seen)|
            || (SetOf(seen') == SetOf(seen) && StaleCount(frontier', SetOf(seen')) < StaleCount(frontier, SetOf(seen)))
  {
    var node := frontier[0];
    hist' := hist + [(node.state, node.parent)];
    seen' := seen + [node.state];
    assert SetOf(seen') == SetOf(seen) + {node.state};
    HistGrows(db, source, hist, node, frontier[1..]);
    assert seen' == Firsts(hist');
    var pushes := Expand(NeighborsForPerson(db, node.state.1), node, seen');
    PushesOK(db, source, hist', node, pushes);
    ConcatNodesOK(db, source, hist', frontier[1..], pushes);
    ExpandKeepsClosed(db, first, seen, frontier, pushes);
    MeasureDrops(db, SetOf(seen), frontier, pushes);
    frontier' := frontier[1..] + pushes;
  }

  /** When the frontier runs dry the removed pairs are closed under co-starring. */
  lemma ExhaustedClosed(db: Database, source: PersonId, seen: seq<Star>)
    requires Linked(db) && source in db.people
    requires Closed(db, NeighborsForPerson(db, source), seen, [])
    ensures forall s :: s in seen ==> s.1 in db.people
    ensures forall n :: n in NeighborsForPerson(db, source) ==> n in seen
    ensures forall s, n :: s in seen && n in NeighborsForPerson(db, s.1) ==> n in seen
  {
    assert States([]) == [];
  }

  /** The breadth-first loop of `shortest_path` up to the moment a path would be
      rebuilt. `hit` is the removed node whose person is the target, and `done` the
      history of removals ending with that node's entry. `seen` is the list of
      pairs removed from the frontier. `None` comes only from an exhausted
      frontier, and then the removed pairs are closed under co-starring, include
      all of the source's neighbours, and never name the target. */
  method Explore(db: Database, source: PersonId, target: PersonId)
    returns (hit: Option<Node>, done: History, seen: seq<Star>)
    requires Linked(db) && source in db.people
    ensures hit.Some? ==> |done| > 0 && done[|done| - 1] == (hit.value.state, hit.value.parent)
    ensures hit.Some? ==> hit.value.state.1 == target && IsStar(db, hit.value.state)
    ensures hit.Some? ==> HistLinked(source, done) && HistStars(db, done)
    ensures hit.None? ==> forall s :: s in seen ==> s.1 != target && s.1 in db.people
    ensures hit.None? ==> forall n :: n in NeighborsForPerson(db, source) ==> n in seen
    ensures hit.None? ==> forall s, n :: s in seen && n in NeighborsForPerson(db, s.1) ==> n in seen
  {
    var first := NeighborsForPerson(db, source);
    var frontier := Seed(first, source);
    SeedNodesOK(db, source, frontier);
    var hist: History := [];
    seen := [];
    while frontier != []
      invariant SearchInv(db, source, first, target, frontier, hist, seen)
      decreases |StarPairs(db) - SetOf(seen)|, StaleCount(frontier, SetOf(seen))
    {
      var node := frontier[0];
      if node.state.1 == target {
        HistGrows(db, source, hist, node, []);
        return Some(node), hist + [(node.state, node.parent)], seen + [node.state];
      }
      frontier, hist, seen := Advance(db, source, first, target, frontier, hist, seen);
    }
    ExhaustedClosed(db, source, seen);
    return None, [], seen;
  }

  /** Every pair recorded in a history of real pairs is a real pair. */
  lemma HistoryPairsAreStars(db: Database, hist: History, s: Star)
    requires HistStars(db, hist) && exists h :: h in hist && h.0 == s
    ensures IsStar(db, s)
  {
    var h :| h in hist && h.0 == s;
    var i :| 0 <= i < |hist| && hist[i] == h;
  }

  /** A seen set that holds the source's neighbours and is closed under
      neighbours holds every pair of every co-star chain from the source. */
  lemma {:induction false} ClosedSeenHoldsChain(db: Database, source: PersonId, seen: seq<Star>, c: seq<Star>, k: int)
    requires Linked(db) && source in db.people
    requires forall s :: s in seen ==> s.1 in db.people
    requires forall n :: n in NeighborsForPerson(db, source) ==> n in seen
    requires forall s, n :: s in seen && n in NeighborsForPerson(db, s.1) ==> n in seen
    requires Chain(db, source, c) && 0 <= k < |c|
    ensures c[k] in seen
    decreases k
  {
    if k == 0 {
      assert c[0] in NeighborsForPerson(db, source);
    } else {
      ClosedSeenHoldsChain(db, source, seen, c, k - 1);
      assert c[k] in NeighborsForPerson(db, c[k - 1].1);
    }
  }

  /** An exhausted search has seen no pair at the target, so no co-star chain
      from the source reaches the target: "Not connected." */
  lemma NotConnected(db: Database, source: PersonId, target: PersonId, seen: seq<Star>)
    requires Linked(db) && source in db.people
    requires forall s :: s in seen ==> s.1 != target && s.1 in db.people
    requires forall n :: n in NeighborsForPerson(db, source) ==> n in seen
    requires forall s, n :: s in seen && n in NeighborsForPerson(db, s.1) ==> n in seen
    ensures !exists c: seq<Star> :: Chain(db, source, c) && c[|c| - 1].1 == target
  {
    forall c: seq<Star> | Chain(db, source, c)
      ensures c[|c| - 1].1 != target
    {
      ClosedSeenHoldsChain(db, source, seen, c, |c| - 1);
    }
  }

  /** `shortest_path(source, target)` as written: the path is rebuilt by the
      forward scan `PathTo`. A path is returned only when the target is connected
      to the source by some co-star chain; what the scan guarantees about the
      returned path is that it ends at the target and consists of real
      (movie, star) pairs, but it need not start at the source (see
      `ForwardScanLosesChain`). `None` carries the same closure facts
      as `Explore`. */
  method ShortestPath(db: Database, source: PersonId, target: PersonId) returns (path: Option<seq<Star>>, seen: seq<Star>)
    requires Linked(db) && source in db.people
    ensures path.Some? ==> |path.value| > 0 && path.value[|path.value| - 1].1 == target
    ensures path.Some? ==> forall k :: 0 <= k < |path.value| ==> IsStar(db, path.value[k])
    ensures path.Some? <==> exists c: seq<Star> :: Chain(db, source, c) && c[|c| - 1].1 == target
    ensures path.None? ==> forall s :: s in seen ==> s.1 != target && s.1 in db.people
    ensures path.None? ==> forall n :: n in NeighborsForPerson(db, source) ==> n in seen
    ensures path.None? ==> forall s, n :: s in seen && n in NeighborsForPerson(db, s.1) ==> n in seen
  {
    var hit, done;
    hit, done, seen := Explore(db, source, target);
    if hit.None? {
      NotConnected(db, source, target, seen);
      return None, seen;
    }
    TraceIsChain(db, done, source, |done| - 1);
    var r := PathTo(done, hit.value, source);
    forall k | 0 <= k < |r|
      ensures IsStar(db, r[k])
    {
      if r[k] != hit.value.state {
        HistoryPairsAreStars(db, done, r[k]);
      }
    }
    return Some(r), seen;
  }

  /** `shortest_path` with the path rebuilt by following parent links back
      (`TraceFrom`): the returned path is a co-star chain from the source ending at
      the target. */
  method ShortestChain(db: Database, source: PersonId, target: PersonId) returns (path: Option<seq<Star>>, seen: seq<Star>)
    requires Linked(db) && source in db.people
    ensures path.Some? ==> Chain(db, source, path.value) && path.value[|path.value| - 1].1 == target
    ensures path.None? ==> !exists c: seq<Star> :: Chain(db, source, c) && c[|c| - 1].1 == target
    ensures path.None? ==> forall s :: s in seen ==> s.1 != target && s.1 in db.people
    ensures path.None? ==> forall n :: n in NeighborsForPerson(db, source) ==> n in seen
    ensures path.None? ==> forall s, n :: s in seen && n in NeighborsForPerson(db, s.1) ==> n in seen
  {
    var hit, done;
    hit, done, seen := Explore(db, source, target);
    if hit.None? {
      NotConnected(db, source, target, seen);
      return None, seen;
    }
    TraceIsChain(db, done, source, |done| - 1);
    return Some(TraceFrom(done, source, |done| - 1)), seen;
  }

  // ---------------------------------------------------------------------------
  // The forward pass loses the chain three steps out.

  /** s and a share m1, a and b share m2, b and t share m3. */
  function ChainDb(): Database
  {
    Database(
      map[],
      map["s" := {"m1"}, "a" := {"m1", "m2"}, "b" := {"m2", "m3"}, "t" := {"m3"}],
      map["m1" := {"s", "a"}, "m2" := {"a", "b"}, "m3" := {"b", "t"}])
  }

  /** The removals of a search from s to t on `ChainDb` when every set is visited
      in the order written above, ending with the target's entry. */
  function ChainHistory(): History
  {
    [ (("m1", "s"), ("", "s")),
      (("m1", "a"), ("", "s")),
      (("m1", "a"), ("m1", "s")),
      (("m2", "a"), ("m1", "a")),
      (("m2", "b"), ("m1", "a")),
      (("m2", "a"), ("m1", "a")),
      (("m2", "b"), ("m1", "a")),
      (("m2", "b"), ("m2", "a")),
      (("m3", "b"), ("m2", "b")),
      (("m3", "t"), ("m2", "b")) ]
  }

  lemma ChainDbLinked()
    ensures Linked(ChainDb())
  {
  }

  /** The history has the shape every search history has. */
  lemma ChainHistoryWellFormed()
    ensures HistLinked("s", ChainHistory()) && HistStars(ChainDb(), ChainHistory())
  {
    var h := ChainHistory();
    forall i | 0 <= i < |h| ensures h[i].1.1 == "s" || h[i].1 in Firsts(h[..i]) {
      if i >= 2 {
        var j := if i == 2 then 0 else if i <= 6 then 1 else if i == 7 then 3 else 4;
        assert Firsts(h[..i])[j] == h[i].1;
      }
    }
  }

  /** On that history the forward pass returns `[(m2, b), (m3, t)]`, which claims
      s starred in m2. */
  lemma ForwardScanLosesChain()
    ensures PathTo(ChainHistory(), Node(("m3", "t"), ("m2", "b"), 3), "s") == [("m2", "b"), ("m3", "t")]
    ensures !Chain(ChainDb(), "s", [("m2", "b"), ("m3", "t")])
  {
  }

  /** Following parent links on the same history gives the real chain
      `[(m1, a), (m2, b), (m3, t)]`. */
  lemma ParentWalkKeepsChain()
    ensures HistLinked("s", ChainHistory())
    ensures TraceFrom(ChainHistory(), "s", 9) == [("m1", "a"), ("m2", "b"), ("m3", "t")]
    ensures Chain(ChainDb(), "s", TraceFrom(ChainHistory(), "s", 9))
  {
    ChainHistoryWellFormed();
    var h := ChainHistory();
    assert Firsts(h[..9])[4] == ("m2", "b");
    assert FirstIndex(Firsts(h[..9]), ("m2", "b")) == 4;
    assert Firsts(h[..4])[1] == ("m1", "a");
    assert FirstIndex(Firsts(h[..4]), ("m1", "a")) == 1;
    assert TraceFrom(h, "s", 1) == [("m1", "a")];
    assert TraceFrom(h, "s", 4) == [("m1", "a"), ("m2", "b")];
    TraceIsChain(ChainDb(), h, "s", 9);
  }
}

=== FILE: search.dfy ===
/** Heuristic backtracking search of `CrosswordCreator`: least-constraining-value
    ordering, minimum-remaining-values variable choice, backtracking with undo on
    one assignment map, and `solve` on top. */
module CrosswordSearch {

  import opened Wrappers
  import opened Crossword
  import opened ArcConsistency

  /** Number of words of `ws` that disagree with `w` at the overlap `(i, j)`. */
  function Disagreeing(w: Word, i: nat, ws: set<Word>, j: nat): nat
  {
    |set o | o in ws && !Agrees(w, i, o, j)|
  }

  /** The conflict count `order_domain_values` gives word `w` of variable `x`: the
      words it rules out in the domains of the other ASSIGNED variables that
      overlap `x` (unassigned neighbours are not counted). */
  function Conflicts(p: Puzzle, d: Domains, x: Variable, a: Assignment, w: Word): nat
  {
    ConflictsOver(p.variables, p, d, x, a, w)
  }

  function ConflictsOver(vs: seq<Variable>, p: Puzzle, d: Domains, x: Variable, a: Assignment, w: Word): nat
  {
    if |vs| == 0 then 0
    else
      var v := vs[0];
      (if v in a && v != x && (x, v) in p.overlaps && v in d
       then Disagreeing(w, p.overlaps[(x, v)].0, d[v], p.overlaps[(x, v)].1)
       else 0)
      + ConflictsOver(vs[1..], p, d, x, a, w)
  }

  predicate SortedBy(ws: seq<Word>, key: Word -> nat)
  {
    forall k, l :: 0 <= k < l < |ws| ==> key(ws[k]) <= key(ws[l])
  }

  predicate Distinct(ws: seq<Word>)
  {
    forall k, l :: 0 <= k < l < |ws| ==> ws[k] != ws[l]
  }

  /** Stable insertion: `w` goes after every word whose key is not larger. */
  function {:induction false} InsertByKey(ws: seq<Word>, w: Word, key: Word -> nat): (r: seq<Word>)
    ensures |r| == |ws| + 1
    ensures forall v :: v in r <==> v in ws || v == w
  {
    if |ws| == 0 then [w]
    else if key(w) < key(ws[0]) then [w] + ws
    else
      var rest := InsertByKey(ws[1..], w, key);
      assert forall v :: v in ws <==> v == ws[0] || v in ws[1..];
      [ws[0]] + rest
  }

  /** Insertion keeps a key-sorted sequence sorted. */
  lemma {:induction false} InsertKeepsSorted(ws: seq<Word>, w: Word, key: Word -> nat)
    requires SortedBy(ws, key)
    ensures SortedBy(InsertByKey(ws, w, key), key)
  {
    if |ws| > 0 && key(w) >= key(ws[0]) {
      var rest := InsertByKey(ws[1..], w, key);
      InsertKeepsSorted(ws[1..], w, key);
      assert forall k :: 0 <= k < |rest| ==> rest[k] == w || rest[k] in ws[1..];
      assert forall k :: 0 <= k < |rest| ==> key(ws[0]) <= key(rest[k]);
      assert forall k :: 0 < k < |[ws[0]] + rest| ==> ([ws[0]] + rest)[k] == rest[k - 1];
    }
  }

  /** Inserting a new word into a repeat-free sequence leaves it repeat-free. */
  lemma {:induction false} InsertKeepsDistinct(ws: seq<Word>, w: Word, key: Word -> nat)
    requires Distinct(ws) && w !in ws
    ensures Distinct(InsertByKey(ws, w, key))
  {
    if |ws| > 0 && key(w) >= key(ws[0]) {
      var rest := InsertByKey(ws[1..], w, key);
      InsertKeepsDistinct(ws[1..], w, key);
      assert ws[0] !in rest;
      assert forall k :: 0 < k < |[ws[0]] + rest| ==> ([ws[0]] + rest)[k] == rest[k - 1];
    }
  }

  /** `order_domain_values(x, a)`: the words of x's domain, each once, in
      non-decreasing order of their conflict count. */
  method OrderDomainValues(p: Puzzle, d: Domains, x: Variable, a: Assignment) returns (ws: seq<Word>)
    requires x in d
    ensures forall w :: w in ws <==> w in d[x]
    ensures Distinct(ws)
    ensures forall k, l :: 0 <= k < l < |ws| ==> Conflicts(p, d, x, a, ws[k]) <= Conflicts(p, d, x, a, ws[l])
  {
    var key := (w: Word) => Conflicts(p, d, x, a, w);
    ws := [];
    var rest := d[x];
    while rest != {}
      invariant rest <= d[x]
      invariant forall w :: w in ws <==> w in d[x] && w !in rest
      invariant Distinct(ws)
      invariant SortedBy(ws, key)
      decreases rest
    {
      var w :| w in rest;
      InsertKeepsSorted(ws, w, key);
      InsertKeepsDistinct(ws, w, key);
      ws := InsertByKey(ws, w, key);
      rest := rest - {w};
    }
  }

  /** The variables of `vs` that `a` leaves unassigned, in order. */
  function {:induction false} Unassigned(vs: seq<Variable>, a: Assignment): (un: seq<Variable>)
    ensures forall v :: v in un <==> v in vs && v !in a
    ensures DistinctVariables(vs) ==> DistinctVariables(un)
  {
    if |vs| == 0 then []
    else
      var rest := Unassigned(vs[1..], a);
      assert forall v :: v in vs <==> v == vs[0] || v in vs[1..];
      if vs[0] in a then rest else [vs[0]] + rest
  }

  /** The position a stable sort by `key` moves to the front: the first element of
      minimal key. */
  function {:induction false} FirstMinIndex(s: seq<Variable>, key: Variable -> nat): (k: nat)
    requires |s| > 0
    ensures k < |s|
    ensures forall l :: 0 <= l < |s| ==> key(s[k]) <= key(s[l])
    ensures forall l :: 0 <= l < k ==> key(s[l]) > key(s[k])
  {
    if |s| == 1 then 0
    else
      var k' := FirstMinIndex(s[1..], key);
      if key(s[0]) <= key(s[1..][k']) then 0 else k' + 1
  }

  /** `s` without position `k0`. */
  function Skip(s: seq<Variable>, k0: nat): (r: seq<Variable>)
    requires k0 < |s|
    ensures |r| == |s| - 1
    ensures forall l :: 0 <= l < |r| ==> r[l] == s[if l < k0 then l else l + 1]
  {
    s[..k0] + s[k0 + 1..]
  }

  /** The position a stable sort by `key` moves to second place, given the first
      `k0`: the first element of minimal key among the others. */
  function SecondMinIndex(s: seq<Variable>, key: Variable -> nat, k0: nat): (j: nat)
    requires k0 < |s| && |s| > 1
    ensures j < |s| && j != k0
    ensures forall l :: 0 <= l < |s| && l != k0 ==> key(s[j]) <= key(s[l])
    ensures forall l :: 0 <= l < j && l != k0 ==> key(s[j]) < key(s[l])
  {
    var m := FirstMinIndex(Skip(s, k0), key);
    SkipMin(s, key, k0, m);
    if m < k0 then m else m + 1
  }

  /** The head of the stable sort of `Skip(s, k0)`, mapped back to its position
      in `s`, is the first key-minimal position other than `k0`. */
  lemma SkipMin(s: seq<Variable>, key: Variable -> nat, k0: nat, m: nat)
    requires k0 < |s| && m < |s| - 1
    requires forall i :: 0 <= i < |s| - 1 ==> key(Skip(s, k0)[m]) <= key(Skip(s, k0)[i])
    requires forall i :: 0 <= i < m ==> key(Skip(s, k0)[m]) < key(Skip(s, k0)[i])
    ensures var j := if m < k0 then m else m + 1;
      && (forall l :: 0 <= l < |s| && l != k0 ==> key(s[j]) <= key(s[l]))
      && (forall l :: 0 <= l < j && l != k0 ==> key(s[j]) < key(s[l]))
  {
    var j := if m < k0 then m else m + 1;
    assert Skip(s, k0)[m] == s[j];
    forall l | 0 <= l < |s| && l != k0
      ensures key(s[j]) <= key(s[l]) && (l < j ==> key(s[j]) < key(s[l]))
    {
      var o := if l < k0 then l else l - 1;
      assert Skip(s, k0)[o] == s[l];
    }
  }

  /** Remaining-values count of a variable. */
  function DomainSize(d: Domains, v: Variable): nat
  {
    if v in d then |d[v]| else 0
  }

  /** Degree of a variable: the size of its neighbour set. */
  function Degree(p: Puzzle, v: Variable): nat
  {
    |Neighbors(p, v)|
  }

  /** The choice among the unassigned variables `un` (in order). Stable-sorting
      `un` by domain size gives `first` and `second`; on a size tie with equal
      degrees the source returns the head of `un` stable-sorted by degree, which is
      a variable with the FEWEST neighbours. The source's other tie branch compares
      a value with itself and never fires, so it is left out. */
  function ChooseVariable(un: seq<Variable>, size: Variable -> nat, degree: Variable -> nat): (v: Variable)
    requires |un| > 0 && DistinctVariables(un)
    ensures v in un
    ensures (forall u :: u in un ==> size(v) <= size(u)) || (forall u :: u in un ==> degree(v) <= degree(u))
    ensures forall w :: w in un && (forall u :: u in un && u != w ==> size(w) < size(u)) ==> v == w
  {
    var k0 := FirstMinIndex(un, size);
    var first := un[k0];
    if |un| > 1 then
      var second := un[SecondMinIndex(un, size, k0)];
      if size(first) == size(second) && degree(first) == degree(second) then
        un[FirstMinIndex(un, degree)]
      else
        first
    else
      first
  }

  /** `i` is the first position of minimal `key` in `un`, and `j` the first
      position of minimal `key` among the others: the heads of `un` stable-sorted
      by `key`, in order. */
  predicate FirstTwoSmallest(un: seq<Variable>, key: Variable -> nat, i: int, j: int)
  {
    && 0 <= i < |un| && 0 <= j < |un| && i != j
    && (forall l :: 0 <= l < |un| ==> key(un[i]) <= key(un[l]))
    && (forall l :: 0 <= l < i ==> key(un[i]) < key(un[l]))
    && (forall l :: 0 <= l < |un| && l != i ==> key(un[j]) <= key(un[l]))
    && (forall l :: 0 <= l < j && l != i ==> key(un[j]) < key(un[l]))
  }

  /** The tie rule of the selection: when the first two variables by domain size
      tie in both size and degree, the choice is the first variable of fewest
      neighbours among all of `un`; otherwise it is the first of smallest size. */
  lemma ChooseVariableTieRule(un: seq<Variable>, size: Variable -> nat, degree: Variable -> nat, i: int, j: int)
    requires DistinctVariables(un)
    requires FirstTwoSmallest(un, size, i, j)
    ensures var v := ChooseVariable(un, size, degree);
      if size(un[i]) == size(un[j]) && degree(un[i]) == degree(un[j])
      then v == un[FirstMinIndex(un, degree)]
      else v == un[i]
  {
    var k0 := FirstMinIndex(un, size);
    var k1 := SecondMinIndex(un, size, k0);
    FirstTwoUnique(un, size, i, j, k0, k1);
  }

  /** The first two positions of a stable sort are determined by the keys. */
  lemma FirstTwoUnique(un: seq<Variable>, key: Variable -> nat, i: int, j: int, i': int, j': int)
    requires FirstTwoSmallest(un, key, i, j) && FirstTwoSmallest(un, key, i', j')
    ensures i == i' && j == j'
  {
    assert key(un[i]) == key(un[i']);
    assert key(un[j]) == key(un[j']);
  }

  /** The tie rule on a small example: sizes 2, 2, 10 and degrees 3, 3, 0 select
      the third variable, although it has the most remaining values. */
  lemma TieSelectsFewestNeighbours(a: Variable, b: Variable, c: Variable)
    requires a != b && a != c && b != c
    ensures var size := (v: Variable) => if v == c then 10 else 2;
      var degree := (v: Variable) => if v == c then 0 else 3;
      ChooseVariable([a, b, c], size, degree) == c
  {
    var un := [a, b, c];
    var size := (v: Variable) => if v == c then 10 else 2;
    var degree := (v: Variable) => if v == c then 0 else 3;
    assert FirstTwoSmallest(un, size, 0, 1);
    ChooseVariableTieRule(un, size, degree, 0, 1);
    assert FirstMinIndex(un, degree) == 2 by {
      var k := FirstMinIndex(un, degree);
      assert degree(un[k]) <= degree(un[2]) == 0;
    }
  }

  /** `select_unassigned_variable(a)`: `None` stands for the `IndexError` the
      source raises when no variable is left unassigned. */
  function SelectUnassignedVariable(p: Puzzle, d: Domains, a: Assignment): (r: Option<Variable>)
    requires DistinctVariables(p.variables)
    ensures r.None? <==> forall v :: v in p.variables ==> v in a
    ensures r.Some? ==> r.value in p.variables && r.value !in a
  {
    var un := Unassigned(p.variables, a);
    if |un| == 0 then None
    else Some(ChooseVariable(un, v => DomainSize(d, v), v => Degree(p, v)))
  }

  /** The chosen variable has the fewest remaining values, or (after a tie) the
      fewest neighbours, among the unassigned ones. */
  lemma SelectIsMinimal(p: Puzzle, d: Domains, a: Assignment)
    requires DistinctVariables(p.variables)
    ensures var r := SelectUnassignedVariable(p, d, a);
      r.Some? ==>
        (forall v :: v in p.variables && v !in a ==> DomainSize(d, r.value) <= DomainSize(d, v)) ||
        (forall v :: v in p.variables && v !in a ==> Degree(p, r.value) <= Degree(p, v))
  {
    var un := Unassigned(p.variables, a);
    if |un| > 0 {
      var v := ChooseVariable(un, v => DomainSize(d, v), v => Degree(p, v));
      assert SelectUnassignedVariable(p, d, a) == Some(v);
    }
  }

  /** The selection's full rule, over the unassigned variables in puzzle order
      with `i` and `j` the first two by domain size: on a tie in both size and
      degree, the first variable of fewest neighbours; otherwise the first of
      fewest remaining values. */
  lemma SelectTieRule(p: Puzzle, d: Domains, a: Assignment, i: int, j: int)
    requires DistinctVariables(p.variables)
    requires FirstTwoSmallest(Unassigned(p.variables, a), v => DomainSize(d, v), i, j)
    ensures var un := Unassigned(p.variables, a);
      var r := SelectUnassignedVariable(p, d, a);
      if DomainSize(d, un[i]) == DomainSize(d, un[j]) && Degree(p, un[i]) == Degree(p, un[j])
      then r == Some(un[FirstMinIndex(un, v => Degree(p, v))])
      else r == Some(un[i])
  {
    var un := Unassigned(p.variables, a);
    var size := (v: Variable) => DomainSize(d, v);
    var degree := (v: Variable) => Degree(p, v);
    ChooseVariableTieRule(un, size, degree, i, j);
    assert SelectUnassignedVariable(p, d, a) == Some(ChooseVariable(un, size, degree));
  }

  /** An unassigned variable with strictly fewer remaining values than every other
      is the one chosen. */
  lemma SelectUniqueFewest(p: Puzzle, d: Domains, a: Assignment, v: Variable)
    requires DistinctVariables(p.variables)
    requires v in p.variables && v !in a
    requires forall u :: u in p.variables && u !in a && u != v ==> DomainSize(d, v) < DomainSize(d, u)
    ensures SelectUnassignedVariable(p, d, a) == Some(v)
  {
    var un := Unassigned(p.variables, a);
    assert v in un;
    var size := (u: Variable) => DomainSize(d, u);
    var degree := (u: Variable) => Degree(p, u);
    assert forall u :: u in un && u != v ==> size(v) < size(u);
    var c := ChooseVariable(un, size, degree);
    assert c == v;
    assert SelectUnassignedVariable(p, d, a) == Some(c);
  }

  /** Variables of the puzzle that `a` leaves unassigned, as a set: the measure
      the search decreases. */
  ghost function Open(p: Puzzle, a: Assignment): set<Variable>
  {
    set v | v in p.variables && v !in a
  }

  lemma AssignShrinksOpen(p: Puzzle, a: Assignment, x: Variable, w: Word)
    requires x in p.variables && x !in a
    ensures |Open(p, a[x := w])| < |Open(p, a)|
  {
    assert Open(p, a[x := w]) == Open(p, a) - {x};
  }

  /** Popping the tentative entry restores the map exactly. */
  lemma PopRestores(a: Assignment, x: Variable, w: Word)
    requires x !in a
    ensures a[x := w] - {x} == a
  {
  }

  /** `s` keeps every entry of `a`. */
  predicate Extends(a: Assignment, s: Assignment)
  {
    forall v :: v in a ==> v in s && s[v] == a[v]
  }

  /** `s` is a solution the search from `a` can reach: it extends `a`, is complete
      and consistent, and every value it adds comes from that variable's domain. */
  predicate SolutionFrom(p: Puzzle, d: Domains, a: Assignment, s: Assignment)
  {
    && Extends(a, s) && AssignmentComplete(p, s) && Consistent(p, s)
    && (forall v :: v in s && v !in a ==> v in d && s[v] in d[v])
  }

  /** A solution of the puzzle: it assigns only puzzle variables, every one of them
      a dictionary word, and is consistent. */
  predicate Solution(p: Puzzle, s: Assignment)
  {
    (forall v :: v in s ==> v in p.variables) && AssignmentComplete(p, s) && Consistent(p, s)
  }

  /** Consistency is inherited by every part of a consistent assignment. */
  lemma ConsistentWithin(p: Puzzle, a: Assignment, s: Assignment)
    requires Extends(a, s) && Consistent(p, s)
    ensures Consistent(p, a)
  {
  }

  /** No solution reachable from `a` gives `x` one of the first `k` values. */
  ghost predicate Excluded(p: Puzzle, d: Domains, a: Assignment, x: Variable, values: seq<Word>, k: nat)
    requires k <= |values|
  {
    forall s :: SolutionFrom(p, d, a, s) ==> x in s && s[x] !in values[..k]
  }

  /** No solution is reachable from `a`. */
  ghost predicate NoSolutionFrom(p: Puzzle, d: Domains, a: Assignment)
  {
    forall s :: !SolutionFrom(p, d, a, s)
  }

  /** A solution reachable from `a` that gives `x` the word `w` is reachable from
      `a[x := w]`, which is then consistent. */
  lemma ThroughValue(p: Puzzle, d: Domains, a: Assignment, x: Variable, w: Word, s: Assignment)
    requires x !in a && SolutionFrom(p, d, a, s) && x in s && s[x] == w
    ensures Consistent(p, a[x := w]) && SolutionFrom(p, d, a[x := w], s)
  {
    assert Extends(a[x := w], s);
    ConsistentWithin(p, a[x := w], s);
  }

  /** When `a[x := values[k]]` is inconsistent, or no solution is reachable from
      it, no solution reachable from `a` gives `x` that value either. */
  lemma ExcludeNext(p: Puzzle, d: Domains, a: Assignment, x: Variable, values: seq<Word>, k: nat)
    requires x !in a && k < |values| && Excluded(p, d, a, x, values, k)
    requires !Consistent(p, a[x := values[k]]) || NoSolutionFrom(p, d, a[x := values[k]])
    ensures Excluded(p, d, a, x, values, k + 1)
  {
    assert values[..k + 1] == values[..k] + [values[k]];
    forall s | SolutionFrom(p, d, a, s) && x in s && s[x] == values[k]
      ensures Consistent(p, a[x := values[k]]) && SolutionFrom(p, d, a[x := values[k]], s)
    {
      ThroughValue(p, d, a, x, values[k], s);
    }
  }

  /** Once every value of x's domain is excluded, no solution is reachable. */
  lemma AllValuesExcluded(p: Puzzle, d: Domains, a: Assignment, x: Variable, values: seq<Word>)
    requires x !in a && x in d && forall w :: w in values <==> w in d[x]
    requires Excluded(p, d, a, x, values, |values|)
    ensures NoSolutionFrom(p, d, a)
  {
    assert values[..|values|] == values;
  }

  /** What any reachable solution implies about `a`: with all variables assigned,
      `a` is already complete, and every unassigned variable has a domain. */
  lemma SolutionShape(p: Puzzle, d: Domains, a: Assignment)
    ensures forall s :: SolutionFrom(p, d, a, s) ==>
      && ((forall v :: v in p.variables ==> v in a) ==> AssignmentComplete(p, a))
      && (forall v :: v in p.variables && v !in a ==> v in d)
  {
  }

  /** With every variable assigned but the assignment incomplete, or with an
      unassigned variable lacking a domain, no solution is reachable. */
  lemma NothingToBranchOn(p: Puzzle, d: Domains, a: Assignment)
    requires !AssignmentComplete(p, a)
    requires (forall v :: v in p.variables ==> v in a) || (exists v :: v in p.variables && v !in a && v !in d)
    ensures NoSolutionFrom(p, d, a)
  {
    SolutionShape(p, d, a);
  }

  /** The variable `backtrack` branches on: `found` is false when selection
      fails (the source's `IndexError`) or the chosen variable has no domain. */
  method PickVariable(p: Puzzle, d: Domains, a: Assignment) returns (found: bool, x: Variable)
    requires WellFormed(p)
    ensures found ==> x in p.variables && x !in a && x in d
    ensures !found ==>
      (forall v :: v in p.variables ==> v in a) || (exists v :: v in p.variables && v !in a && v !in d)
  {
    var sel := SelectUnassignedVariable(p, d, a);
    if sel.None? {
      return false, Variable(Across, 0, 0, 0);
    }
    if sel.value !in d {
      assert sel.value in p.variables && sel.value !in a;
      return false, Variable(Across, 0, 0, 0);
    }
    return true, sel.value;
  }

  /** The two heuristic calls at the top of `backtrack`: the variable to branch on
      and its values in trial order. */
  method NextVariable(p: Puzzle, d: Domains, a: Assignment) returns (found: bool, x: Variable, values: seq<Word>)
    requires WellFormed(p)
    ensures found ==> x in p.variables && x !in a && x in d
    ensures found ==> forall w :: w in values <==> w in d[x]
    ensures !found ==>
      (forall v :: v in p.variables ==> v in a) || (exists v :: v in p.variables && v !in a && v !in d)
  {
    found, x := PickVariable(p, d, a);
    if !found {
      return false, x, [];
    }
    values := OrderDomainValues(p, d, x, a);
  }

  /** `backtrack(a)`, threading the one mutable assignment map: `after` is the map's
      state when the call returns. A found assignment is the map itself; on failure
      every tentative `assignment[var] = word` has been popped again, so the map is
      exactly as on entry. */
  method Backtrack(p: Puzzle, d: Domains, a: Assignment) returns (res: Option<Assignment>, after: Assignment)
    requires WellFormed(p)
    ensures res.None? ==> after == a
    ensures res.Some? ==> after == res.value
    ensures AssignmentComplete(p, a) ==> res == Some(a)
    ensures res.Some? ==> AssignmentComplete(p, res.value)
    ensures res.Some? ==> forall v :: v in a ==> v in res.value && res.value[v] == a[v]
    ensures res.Some? ==> forall v :: v in res.value && v !in a ==> v in d && res.value[v] in d[v]
    ensures res.Some? && Consistent(p, a) ==> Consistent(p, res.value)
    ensures res.None? ==> NoSolutionFrom(p, d, a)
    decreases |Open(p, a)|
  {
    if AssignmentComplete(p, a) {
      return Some(a), a;
    }
    var found, x, values := NextVariable(p, d, a);
    if !found {
      NothingToBranchOn(p, d, a);
      return None, a;
    }
    after := a;
    var k := 0;
    while k < |values|
      invariant k <= |values|
      invariant after == a
      invariant Excluded(p, d, a, x, values, k)
    {
      after := after[x := values[k]];
      var ok := CheckConsistent(p, after);
      if ok {
        AssignShrinksOpen(p, a, x, values[k]);
        var r, back := Backtrack(p, d, after);
        if r.Some? {
          return r, back;
        }
        after := back;
      }
      PopRestores(a, x, values[k]);
      after := after - {x};
      ExcludeNext(p, d, a, x, values, k);
      k := k + 1;
    }
    AllValuesExcluded(p, d, a, x, values);
    return None, after;
  }

  /** `solve`: node consistency, then AC-3 with its verdict ignored, then search
      from the empty assignment. The result is a solution, and `None` only when
      the puzzle has none. */
  method Solve(p: Puzzle) returns (res: Option<Assignment>)
    requires WellFormed(p)
    ensures res.Some? ==> Solution(p, res.value)
    ensures res.Some? ==> forall v :: v in res.value ==> |res.value[v]| == v.length && res.value[v] in p.words
    ensures res.None? ==> forall s :: !Solution(p, s)
    ensures |p.variables| == 0 ==> res == Some(map[])
  {
    var d := EnforceNodeConsistency(p, InitialDomains(p));
    var _, pruned := Ac3(p, d, None);
    EmptyAssignmentConsistent(p);
    var after;
    res, after := Backtrack(p, pruned, map[]);
    SolutionsSurvive(p, d, pruned);
  }

  /** Every solution of the puzzle is drawn from the node-consistent domains, and
      therefore (by AC-3's guarantee) from the pruned ones, so the search from the
      empty assignment can reach it. */
  lemma SolutionsSurvive(p: Puzzle, d: Domains, pruned: Domains)
    requires d == EnforceNodeConsistency(p, InitialDomains(p)) && Covers(p, pruned)
    requires forall s :: Consistent(p, s) && InDomains(p, d, s) ==> InDomains(p, pruned, s)
    ensures forall s :: Solution(p, s) ==> SolutionFrom(p, pruned, map[], s)
  {
    forall s | Solution(p, s)
      ensures SolutionFrom(p, pruned, map[], s)
    {
      assert InDomains(p, d, s);
    }
  }
}

=== FILE: shopping.dfy ===
/** The shopping exercise's value decoders and its `evaluate` scoring of
    predictions. CSV loading and the k-nearest-neighbour model are not part of
    this model. */
module Shopping {

  import opened Wrappers

  /** The month keys in calendar order. The sixth is spelled out in full:
      "June" is a key and "Jun" is not. */
  const MonthNames: seq<string> :=
    ["Jan", "Feb", "Mar", "Apr", "May", "June", "Jul", "Aug", "Sep", "Oct", "Nov", "Dec"]

  /** `month_to_num`: a dictionary lookup, `None` for a missing key. */
  function MonthToNum(month: string): (r: Option<nat>)
    ensures r.Some? ==> r.value < 12 && MonthNames[r.value] == month
    ensures r.None? <==> month !in MonthNames
  {
    var calendar := map["Jan" := 0, "Feb" := 1, "Mar" := 2, "Apr" := 3, "May" := 4, "June" := 5,
                        "Jul" := 6, "Aug" := 7, "Sep" := 8, "Oct" := 9, "Nov" := 10, "Dec" := 11];
    if month in calendar then Some(calendar[month]) else None
  }

  /** Every month index is reached, by the name at that index. */
  lemma MonthToNumOnto(k: nat)
    requires k < 12
    ensures MonthToNum(MonthNames[k]) == Some(k)
  {
    var r := MonthToNum(MonthNames[k]);
    assert r.Some?;
    assert MonthNames[r.value] == MonthNames[k];
  }

  /** Distinct month names give distinct numbers. */
  lemma MonthToNumInjective(a: string, b: string)
    requires MonthToNum(a).Some? && MonthToNum(a) == MonthToNum(b)
    ensures a == b
  {
  }

  /** The abbreviation "Jun" is not recognised. */
  lemma JunIsNotAKey()
    ensures MonthToNum("Jun") == None && MonthToNum("June") == Some(5)
  {
    assert "Jun" != "June";
    assert MonthNames[5] == "June";
  }

  /** `visit_type`: 1 for a returning visitor, 0 for anything else. */
  function VisitType(visit: string): (r: int)
    ensures r == 0 || r == 1
    ensures r == 1 <==> visit == "Returning_Visitor"
  {
    if visit == "Returning_Visitor" then 1 else 0
  }

  /** `weekend_revenue_num`: "FALSE" and "TRUE" decode to 0 and 1; anything
      else is a missing key. */
  function WeekendRevenueNum(s: string): (r: Option<int>)
    ensures r == Some(0) <==> s == "FALSE"
    ensures r == Some(1) <==> s == "TRUE"
    ensures r.None? <==> s != "FALSE" && s != "TRUE"
  {
    var state := map["FALSE" := 0, "TRUE" := 1];
    if s in state then Some(state[s]) else None
  }

  /** `zip(labels, predictions)`: pairs up to the shorter length. */
  function Zip(labels: seq<int>, predictions: seq<int>): (r: seq<(int, int)>)
    ensures |r| == if |labels| < |predictions| then |labels| else |predictions|
    ensures forall k :: 0 <= k < |r| ==> r[k] == (labels[k], predictions[k])
  {
    var n := if |labels| < |predictions| then |labels| else |predictions|;
    seq(n, k requires 0 <= k < n => (labels[k], predictions[k]))
  }

  /** The four counters of `evaluate`. */
  datatype Counts = Counts(totalPos: nat, predictedPos: nat, totalNeg: nat, predictedNeg: nat)

  /** One pair's contribution: label 1 is positive, every other label negative;
      a prediction is correct when it equals the label. */
  function Count(c: Counts, pair: (int, int)): Counts
  {
    var (a, b) := pair;
    if a == 1 then
      c.(totalPos := c.totalPos + 1, predictedPos := c.predictedPos + (if a == b then 1 else 0))
    else
      c.(totalNeg := c.totalNeg + 1, predictedNeg := c.predictedNeg + (if a == b then 1 else 0))
  }

  /** The counters after the whole sequence of pairs, one pair at a time. */
  function Tally(pairs: seq<(int, int)>): Counts
  {
    if |pairs| == 0 then Counts(0, 0, 0, 0)
    else Count(Tally(pairs[..|pairs| - 1]), pairs[|pairs| - 1])
  }

  /** Positives and negatives partition the pairs, and correct predictions never
      outnumber their class. */
  lemma {:induction false} TallyBounds(pairs: seq<(int, int)>)
    ensures Tally(pairs).totalPos + Tally(pairs).totalNeg == |pairs|
    ensures Tally(pairs).predictedPos <= Tally(pairs).totalPos
    ensures Tally(pairs).predictedNeg <= Tally(pairs).totalNeg
  {
    if |pairs| > 0 {
      TallyBounds(pairs[..|pairs| - 1]);
    }
  }

  /** Predicting every label exactly makes every positive and every negative
      correct. */
  lemma {:induction false} TallyPerfect(labels: seq<int>)
    ensures Tally(Zip(labels, labels)).predictedPos == Tally(Zip(labels, labels)).totalPos
    ensures Tally(Zip(labels, labels)).predictedNeg == Tally(Zip(labels, labels)).totalNeg
  {
    if |labels| > 0 {
      var n := |labels| - 1;
      assert Zip(labels, labels)[..n] == Zip(labels[..n], labels[..n]);
      TallyPerfect(labels[..n]);
    }
  }

  /** A count of correct predictions over a non-empty class is a rate in [0, 1]. */
  lemma RateInUnit(hits: nat, total: nat)
    requires 0 < total && hits <= total
    ensures 0.0 <= hits as real / total as real <= 1.0
  {
    assert hits as real <= total as real;
  }

  /** `evaluate`'s result: the two rates, or the `ZeroDivisionError` raised when a
      class has no labels. */
  datatype Scores = Rates(sensitivity: real, specificity: real) | DivisionByZero

  /** `evaluate(labels, predictions)`. The counters are those of `Tally` over the
      zipped pairs; the rates are exact fractions in [0, 1]. */
  method Evaluate(labels: seq<int>, predictions: seq<int>) returns (r: Scores)
    ensures var c := Tally(Zip(labels, predictions));
      && (r == DivisionByZero <==> c.totalPos == 0 || c.totalNeg == 0)
      && (r.Rates? ==>
            r.sensitivity == c.predictedPos as real / c.totalPos as real &&
            r.specificity == c.predictedNeg as real / c.totalNeg as real)
    ensures r.Rates? ==> 0.0 <= r.sensitivity <= 1.0 && 0.0 <= r.specificity <= 1.0
  {
    var pairs := Zip(labels, predictions);
    var c := Counts(0, 0, 0, 0);
    var i := 0;
    while i < |pairs|
      invariant 0 <= i <= |pairs|
      invariant c == Tally(pairs[..i])
    {
      assert pairs[..i + 1][..i] == pairs[..i];
      c := Count(c, pairs[i]);
      i := i + 1;
    }
    assert pairs[..i] == pairs;
    TallyBounds(pairs);
    if c.totalPos == 0 || c.totalNeg == 0 {
      return DivisionByZero;
    }
    var sensitivity := c.predictedPos as real / c.totalPos as real;
    var specificity := c.predictedNeg as real / c.totalNeg as real;
    RateInUnit(c.predictedPos, c.totalPos);
    RateInUnit(c.predictedNeg, c.totalNeg);
    return Rates(sensitivity, specificity);
  }
}

=== FILE: tictactoe.dfy ===
/** Tic-tac-toe rules and minimax: a 3x3 board of X, O or EMPTY (Python's `None`). */
module TicTacToe {

  import opened Wrappers

  datatype Cell = X | O | Empty

  /** Three rows of three cells. */
  type Board = b: seq<seq<Cell>> | |b| == 3 && |b[0]| == 3 && |b[1]| == 3 && |b[2]| == 3
    witness [[Empty, Empty, Empty], [Empty, Empty, Empty], [Empty, Empty, Empty]]

  /** `(row, column)` as the source writes actions. */
  type Move = (int, int)

  predicate OnBoard(m: Move)
  {
    0 <= m.0 < 3 && 0 <= m.1 < 3
  }

  /** Row-major position of a move. */
  function Index(m: Move): int
  {
    3 * m.0 + m.1
  }

  function Is(c: Cell, want: Cell): nat
  {
    if c == want then 1 else 0
  }

  /** Number of cells of `row` holding `c`. */
  function RowCount(row: seq<Cell>, c: Cell): nat
    requires |row| == 3
  {
    Is(row[0], c) + Is(row[1], c) + Is(row[2], c)
  }

  /** Number of cells of the board holding `c`. */
  function Count(b: Board, c: Cell): nat
  {
    RowCount(b[0], c) + RowCount(b[1], c) + RowCount(b[2], c)
  }

  function EmptyCount(b: Board): nat
  {
    Count(b, Empty)
  }

  /** `initial_state`. */
  function InitialState(): (b: Board)
    ensures forall i, j :: 0 <= i < 3 && 0 <= j < 3 ==> b[i][j] == Empty
  {
    [[Empty, Empty, Empty], [Empty, Empty, Empty], [Empty, Empty, Empty]]
  }

  /** `player`: O moves when the number of marks on the board is odd, X otherwise. */
  function Player(b: Board): (r: Cell)
    ensures r != Empty
    ensures r == O <==> (Count(b, X) + Count(b, O)) % 2 == 1
  {
    PlayerFor(Count(b, X) + Count(b, O))
  }

  function PlayerFor(marks: nat): (r: Cell)
    ensures r != Empty
    ensures r == O <==> marks % 2 == 1
  {
    if marks % 2 != 0 then O else X
  }

  /** X moves first. */
  lemma InitialPlayerIsX()
    ensures Count(InitialState(), X) == 0 && Count(InitialState(), O) == 0
    ensures Player(InitialState()) == X
  {
  }

  /** The inner loop of `actions` over row `i`: its empty cells, left to right. */
  function RowActions(b: Board, i: int): (r: seq<Move>)
    requires 0 <= i < 3
    ensures forall m :: m in r <==> m.0 == i && 0 <= m.1 < 3 && b[i][m.1] == Empty
    ensures forall p, q :: 0 <= p < q < |r| ==> r[p].1 < r[q].1
    ensures forall p :: 0 <= p < |r| ==> r[p].0 == i && 0 <= r[p].1 < 3
    ensures |r| == RowCount(b[i], Empty)
  {
    (if b[i][0] == Empty then [(i, 0)] else []) +
    (if b[i][1] == Empty then [(i, 1)] else []) +
    (if b[i][2] == Empty then [(i, 2)] else [])
  }

  /** Strictly increasing in row-major position (so also free of repeats). */
  predicate RowMajor(r: seq<Move>)
  {
    forall p, q :: 0 <= p < q < |r| ==> Index(r[p]) < Index(r[q])
  }

  /** Every move of `r` lies in rows `lo` to `hi`. */
  predicate InRows(r: seq<Move>, lo: int, hi: int)
  {
    forall p :: 0 <= p < |r| ==> lo <= r[p].0 <= hi && 0 <= r[p].1 < 3
  }

  lemma RowMajorConcat(r: seq<Move>, s: seq<Move>, row: int)
    requires 0 < row <= 2
    requires RowMajor(r) && RowMajor(s) && InRows(r, 0, row - 1) && InRows(s, row, 2)
    ensures RowMajor(r + s) && InRows(r + s, 0, 2)
  {
    assert forall p :: 0 <= p < |r + s| ==> (r + s)[p] == (if p < |r| then r[p] else s[p - |r|]);
    forall p, q | 0 <= p < q < |r + s|
      ensures Index((r + s)[p]) < Index((r + s)[q])
    {
      if q < |r| {
        assert (r + s)[p] == r[p] && (r + s)[q] == r[q];
      } else if p >= |r| {
        assert (r + s)[p] == s[p - |r|] && (r + s)[q] == s[q - |r|];
      } else {
        assert (r + s)[p] == r[p] && (r + s)[q] == s[q - |r|];
      }
    }
  }

  /** `actions`: every empty cell exactly once, in row-major order. */
  function Actions(b: Board): (r: seq<Move>)
    ensures forall m :: m in r <==> OnBoard(m) && b[m.0][m.1] == Empty
    ensures RowMajor(r)
    ensures |r| == EmptyCount(b)
  {
    AllRowsMembers(b);
    AllRowsOrdered(b);
    AllRowsCount(b);
    AllRows(b)
  }

  /** The three rows' actions, one row after the other. */
  function AllRows(b: Board): seq<Move>
  {
    RowActions(b, 0) + RowActions(b, 1) + RowActions(b, 2)
  }

  lemma AllRowsMembers(b: Board)
    ensures forall m :: m in AllRows(b) <==> OnBoard(m) && b[m.0][m.1] == Empty
  {
  }

  lemma RowActionsShape(b: Board, i: int)
    requires 0 <= i < 3
    ensures RowMajor(RowActions(b, i)) && InRows(RowActions(b, i), i, i)
  {
  }

  lemma AllRowsOrdered(b: Board)
    ensures RowMajor(AllRows(b))
  {
    var r0, r1, r2 := RowActions(b, 0), RowActions(b, 1), RowActions(b, 2);
    RowActionsShape(b, 0);
    RowActionsShape(b, 1);
    RowActionsShape(b, 2);
    RowMajorConcat(r0, r1, 1);
    RowMajorConcat(r0 + r1, r2, 2);
  }

  lemma AllRowsCount(b: Board)
    ensures |AllRows(b)| == EmptyCount(b)
  {
  }

  lemma RowFill(row: seq<Cell>, j: int, c: Cell, m: Cell)
    requires |row| == 3 && 0 <= j < 3
    ensures RowCount(row[j := c], m) == RowCount(row, m) - Is(row[j], m) + Is(c, m)
  {
    if j == 0 {} else if j == 1 {} else {}
  }

  /** Writing `c` into one cell changes each count by what left and what came in. */
  lemma FillCount(b: Board, i: int, j: int, c: Cell, m: Cell)
    requires 0 <= i < 3 && 0 <= j < 3
    ensures |b[i][j := c]| == 3
    ensures Count(b[i := b[i][j := c]], m) == Count(b, m) - Is(b[i][j], m) + Is(c, m)
  {
    var row := b[i][j := c];
    RowFill(b[i], j, c, m);
    var b': Board := b[i := row];
    if i == 0 {
      assert b'[1] == b[1] && b'[2] == b[2];
    } else if i == 1 {
      assert b'[0] == b[0] && b'[2] == b[2];
    } else {
      assert b'[0] == b[0] && b'[1] == b[1];
    }
  }

  /** `result(b, (i, j))`: `None` is the exception raised for an occupied cell;
      otherwise a new board, equal to `b` except that the cell holds the player to
      move. */
  function Result(b: Board, m: Move): (r: Option<Board>)
    requires OnBoard(m)
    ensures r.None? <==> b[m.0][m.1] != Empty
    ensures r.Some? ==> r.value[m.0][m.1] == Player(b)
    ensures r.Some? ==> forall i, j :: 0 <= i < 3 && 0 <= j < 3 && (i, j) != m ==> r.value[i][j] == b[i][j]
    ensures r.Some? ==> forall c :: Count(r.value, c) == Count(b, c) - Is(Empty, c) + Is(Player(b), c)
  {
    if b[m.0][m.1] != Empty then None
    else
      FillCount(b, m.0, m.1, Player(b), Empty);
      var b': Board := b[m.0 := b[m.0][m.1 := Player(b)]];
      assert forall c :: Count(b', c) == Count(b, c) - Is(Empty, c) + Is(Player(b), c) by {
        forall c {
          FillCount(b, m.0, m.1, Player(b), c);
        }
      }
      Some(b')
  }

  /** A legal move adds exactly one mark. */
  lemma {:induction false} MoveAddsOneMark(b: Board, m: Move)
    requires OnBoard(m) && b[m.0][m.1] == Empty
    ensures Count(Result(b, m).value, X) + Count(Result(b, m).value, O) == Count(b, X) + Count(b, O) + 1
  {
    var b' := Result(b, m).value;
    assert Count(b', X) == Count(b, X) + Is(Player(b), X);
    assert Count(b', O) == Count(b, O) + Is(Player(b), O);
  }

  lemma PlayerForFlips(n: nat)
    ensures PlayerFor(n + 1) != PlayerFor(n)
  {
  }

  /** One more mark on the board hands the turn to the other player. */
  lemma {:induction false} OneMoreMarkSwitchesPlayer(b: Board, b': Board)
    requires Count(b', X) + Count(b', O) == Count(b, X) + Count(b, O) + 1
    ensures Player(b') != Player(b)
  {
    var n := Count(b, X) + Count(b, O);
    assert Player(b) == PlayerFor(n) && Player(b') == PlayerFor(n + 1);
    PlayerForFlips(n);
  }

  /** The players alternate: after a legal move it is the other player's turn. */
  lemma {:induction false} PlayersAlternate(b: Board, m: Move)
    requires OnBoard(m) && b[m.0][m.1] == Empty
    ensures Player(Result(b, m).value) != Player(b)
  {
    MoveAddsOneMark(b, m);
    OneMoreMarkSwitchesPlayer(b, Result(b, m).value);
  }

  /** The eight lines in the order `winner` scans them: rows, columns, diagonals. */
  function Lines(b: Board): seq<(Cell, Cell, Cell)>
  {
    [(b[0][0], b[0][1], b[0][2]), (b[1][0], b[1][1], b[1][2]), (b[2][0], b[2][1], b[2][2]),
     (b[0][0], b[1][0], b[2][0]), (b[0][1], b[1][1], b[2][1]), (b[0][2], b[1][2], b[2][2]),
     (b[0][0], b[1][1], b[2][2]), (b[0][2], b[1][1], b[2][0])]
  }

  /** Reference definition of the scan: the value of the first line whose three
      cells are equal, or EMPTY when none is. */
  function FirstUniform(lines: seq<(Cell, Cell, Cell)>): Cell
  {
    if |lines| == 0 then Empty
    else if lines[0].0 == lines[0].1 == lines[0].2 then lines[0].0
    else FirstUniform(lines[1..])
  }

  /** The source's row test `row == [v, v, v]` with `v = row[0]`. */
  lemma RowUniform(row: seq<Cell>)
    requires |row| == 3
    ensures row == [row[0], row[0], row[0]] <==> row[0] == row[1] == row[2]
  {
    if row[0] == row[1] == row[2] {
      assert row == [row[0], row[0], row[0]];
    }
  }

  /** One step of the scan, at position `k`. */
  lemma ScanStep(ls: seq<(Cell, Cell, Cell)>, k: nat)
    requires k < |ls|
    ensures FirstUniform(ls[k..]) ==
      if ls[k].0 == ls[k].1 == ls[k].2 then ls[k].0 else FirstUniform(ls[k + 1..])
  {
    assert ls[k..][1..] == ls[k + 1..];
  }

  /** `winner`: rows, then columns, then the two diagonals; the first line whose
      cells are all equal decides, even when they are all EMPTY. */
  function Winner(b: Board): (r: Cell)
    ensures r != Empty ==> (r, r, r) in Lines(b)
    ensures (forall k :: 0 <= k < 8 ==> !(Lines(b)[k].0 == Lines(b)[k].1 == Lines(b)[k].2)) ==> r == Empty
  {
    if b[0] == [b[0][0], b[0][0], b[0][0]] then b[0][0]
    else if b[1] == [b[1][0], b[1][0], b[1][0]] then b[1][0]
    else if b[2] == [b[2][0], b[2][0], b[2][0]] then b[2][0]
    else if b[0][0] == b[1][0] == b[2][0] then b[0][0]
    else if b[0][1] == b[1][1] == b[2][1] then b[0][1]
    else if b[0][2] == b[1][2] == b[2][2] then b[0][2]
    else if b[0][0] == b[1][1] == b[2][2] then b[0][0]
    else if b[0][2] == b[1][1] == b[2][0] then b[0][2]
    else Empty
  }

  /** `winner` is exactly the first-uniform-line scan over `Lines`. */
  lemma WinnerIsFirstUniformLine(b: Board)
    ensures Winner(b) == FirstUniform(Lines(b))
  {
    var ls := Lines(b);
    RowUniform(b[0]);
    RowUniform(b[1]);
    RowUniform(b[2]);
    assert FirstUniform(ls[8..]) == Empty;
    ScanStep(ls, 7);
    ScanStep(ls, 6);
    ScanStep(ls, 5);
    ScanStep(ls, 4);
    ScanStep(ls, 3);
    ScanStep(ls, 2);
    ScanStep(ls, 1);
    ScanStep(ls, 0);
    assert ls[0..] == ls;
  }

  /** The scan stops at an all-EMPTY first row: X's completed middle row is missed. */
  lemma WinnerStopsAtEmptyLine()
    ensures Winner([[Empty, Empty, Empty], [X, X, X], [O, O, Empty]]) == Empty
  {
  }

  /** `terminal`: no empty cell left, or `winner` reports someone. */
  function Terminal(b: Board): (r: bool)
    ensures r <==> EmptyCount(b) == 0 || Winner(b) != Empty
    ensures !r ==> |Actions(b)| > 0
  {
    Actions(b) == [] || Winner(b) != Empty
  }

  /** `utility`: 1 when `winner` says X, -1 when it says O, 0 otherwise. */
  function Utility(b: Board): (r: int)
    ensures -1 <= r <= 1
    ensures r == 1 <==> Winner(b) == X
    ensures r == -1 <==> Winner(b) == O
  {
    if Winner(b) == X then 1
    else if Winner(b) == O then -1
    else 0
  }

  /** `m` is on the board and names an empty cell: a move `actions` offers. */
  predicate Legal(b: Board, m: Move)
  {
    OnBoard(m) && b[m.0][m.1] == Empty
  }

  /** The board after playing a legal move: `result`'s board. */
  function After(b: Board, m: Move): (b': Board)
    requires Legal(b, m)
    ensures EmptyCount(b') == EmptyCount(b) - 1
  {
    FillCount(b, m.0, m.1, Player(b), Empty);
    b[m.0 := b[m.0][m.1 := Player(b)]]
  }

  lemma AfterIsResult(b: Board, m: Move)
    requires Legal(b, m)
    ensures Result(b, m) == Some(After(b, m))
  {
  }

  /** `maxima`: the value of the board for X, assuming best play on both sides. */
  function Maxima(b: Board): (r: int)
    ensures -1 <= r <= 1
    decreases EmptyCount(b), 1
  {
    if Terminal(b) then Utility(b) else MaxFold(b, Actions(b), -2)
  }

  /** `minma`: the value of the board for O (the minimising side). */
  function Minma(b: Board): (r: int)
    ensures -1 <= r <= 1
    decreases EmptyCount(b), 1
  {
    if Terminal(b) then Utility(b) else MinFold(b, Actions(b), 2)
  }

  /** On a finished board both values are the board's utility. */
  lemma ValuesAtTerminal(b: Board)
    requires Terminal(b)
    ensures Maxima(b) == Utility(b) && Minma(b) == Utility(b)
  {
  }

  /** The `v = max(v, minma(result(b, a)))` loop of `maxima`, starting from `v`. */
  function MaxFold(b: Board, acts: seq<Move>, v: int): (r: int)
    requires forall m :: m in acts ==> Legal(b, m)
    requires -2 <= v <= 1
    ensures v <= r <= 1
    ensures |acts| > 0 ==> -1 <= r
    ensures forall m :: m in acts ==> Minma(After(b, m)) <= r
    decreases EmptyCount(b), 0, |acts|
  {
    if |acts| == 0 then v
    else
      var here := Minma(After(b, acts[0]));
      var r := MaxFold(b, acts[1..], if here > v then here else v);
      assert forall m :: m in acts ==> m == acts[0] || m in acts[1..];
      r
  }

  /** The `v = min(v, maxima(result(b, a)))` loop of `minma`, starting from `v`. */
  function MinFold(b: Board, acts: seq<Move>, v: int): (r: int)
    requires forall m :: m in acts ==> Legal(b, m)
    requires -1 <= v <= 2
    ensures -1 <= r <= v
    ensures |acts| > 0 ==> r <= 1
    ensures forall m :: m in acts ==> r <= Maxima(After(b, m))
    decreases EmptyCount(b), 0, |acts|
  {
    if |acts| == 0 then v
    else
      var here := Maxima(After(b, acts[0]));
      var r := MinFold(b, acts[1..], if here < v then here else v);
      assert forall m :: m in acts ==> m == acts[0] || m in acts[1..];
      r
  }

  /** On a board still in play, `maxima` is the best `minma` value X can reach in
      one move, and `minma` the best `maxima` value O can reach. */
  lemma MaximaIsBestMove(b: Board)
    requires !Terminal(b)
    ensures forall m :: m in Actions(b) ==> Minma(After(b, m)) <= Maxima(b)
    ensures exists m :: m in Actions(b) && Maxima(b) == Minma(After(b, m))
  {
    MaxFoldAttained(b, Actions(b), -2);
  }

  lemma MinmaIsBestMove(b: Board)
    requires !Terminal(b)
    ensures forall m :: m in Actions(b) ==> Minma(b) <= Maxima(After(b, m))
    ensures exists m :: m in Actions(b) && Minma(b) == Maxima(After(b, m))
  {
    MinFoldAttained(b, Actions(b), 2);
  }

  /** The fold's result is its start value or the value of one of the moves. */
  lemma {:induction false} MaxFoldAttained(b: Board, acts: seq<Move>, v: int)
    requires forall m :: m in acts ==> Legal(b, m)
    requires -2 <= v <= 1
    ensures MaxFold(b, acts, v) == v || exists m :: m in acts && MaxFold(b, acts, v) == Minma(After(b, m))
    decreases |acts|
  {
    if |acts| > 0 {
      var here := Minma(After(b, acts[0]));
      MaxFoldAttained(b, acts[1..], if here > v then here else v);
      assert forall m :: m in acts[1..] ==> m in acts;
    }
  }

  lemma {:induction false} MinFoldAttained(b: Board, acts: seq<Move>, v: int)
    requires forall m :: m in acts ==> Legal(b, m)
    requires -1 <= v <= 2
    ensures MinFold(b, acts, v) == v || exists m :: m in acts && MinFold(b, acts, v) == Maxima(After(b, m))
    decreases |acts|
  {
    if |acts| > 0 {
      var here := Maxima(After(b, acts[0]));
      MinFoldAttained(b, acts[1..], if here < v then here else v);
      assert forall m :: m in acts[1..] ==> m in acts;
    }
  }

  /** The loop of `minimax` for X: keep the first move whose `minma` value beats
      the best so far, starting from the sentinel value -2 and move (-1, -1). */
  function BestForX(b: Board, acts: seq<Move>, bestVal: int, best: Move): (r: (int, Move))
    requires forall m :: m in acts ==> Legal(b, m)
    requires -2 <= bestVal <= 1
    requires bestVal > -2 ==> Legal(b, best) && Minma(After(b, best)) == bestVal
    ensures bestVal <= r.0 <= 1
    ensures (|acts| > 0 || bestVal > -2) ==> Legal(b, r.1) && Minma(After(b, r.1)) == r.0
    ensures forall m :: m in acts ==> Minma(After(b, m)) <= r.0
    decreases |acts|
  {
    if |acts| == 0 then (bestVal, best)
    else
      var here := Minma(After(b, acts[0]));
      var r := if here > bestVal then BestForX(b, acts[1..], here, acts[0])
               else BestForX(b, acts[1..], bestVal, best);
      assert forall m :: m in acts ==> m == acts[0] || m in acts[1..];
      r
  }

  /** The loop of `minimax` for O, with sentinel value 2 and move (-2, -2). */
  function BestForO(b: Board, acts: seq<Move>, bestVal: int, best: Move): (r: (int, Move))
    requires forall m :: m in acts ==> Legal(b, m)
    requires -1 <= bestVal <= 2
    requires bestVal < 2 ==> Legal(b, best) && Maxima(After(b, best)) == bestVal
    ensures -1 <= r.0 <= bestVal
    ensures (|acts| > 0 || bestVal < 2) ==> Legal(b, r.1) && Maxima(After(b, r.1)) == r.0
    ensures forall m :: m in acts ==> r.0 <= Maxima(After(b, m))
    decreases |acts|
  {
    if |acts| == 0 then (bestVal, best)
    else
      var here := Maxima(After(b, acts[0]));
      var r := if here < bestVal then BestForO(b, acts[1..], here, acts[0])
               else BestForO(b, acts[1..], bestVal, best);
      assert forall m :: m in acts ==> m == acts[0] || m in acts[1..];
      r
  }

  /** `minimax`: no move on a finished board; otherwise a legal move that is
      optimal for the player to move. */
  function Minimax(b: Board): (r: Option<Move>)
    ensures r.None? <==> Terminal(b)
    ensures r.Some? ==> r.value in Actions(b)
    ensures r.Some? && Player(b) == X ==>
      forall m :: m in Actions(b) ==> Minma(After(b, m)) <= Minma(After(b, r.value))
    ensures r.Some? && Player(b) == O ==>
      forall m :: m in Actions(b) ==> Maxima(After(b, r.value)) <= Maxima(After(b, m))
  {
    if Terminal(b) then None
    else if Player(b) == X then Some(BestForX(b, Actions(b), -2, (-1, -1)).1)
    else Some(BestForO(b, Actions(b), 2, (-2, -2)).1)
  }

  /** The move `minimax` picks for X reaches the board's `maxima` value. */
  lemma MinimaxAchievesMaxima(b: Board)
    requires !Terminal(b) && Player(b) == X
    ensures Minma(After(b, Minimax(b).value)) == Maxima(b)
  {
    MaximaIsBestMove(b);
  }

  /** The move `minimax` picks for O reaches the board's `minma` value. */
  lemma MinimaxAchievesMinma(b: Board)
    requires !Terminal(b) && Player(b) == O
    ensures Maxima(After(b, Minimax(b).value)) == Minma(b)
  {
    MinmaIsBestMove(b);
  }
}

=== FILE: wrappers.dfy ===
/** The optional-value type shared by every module of the model: Python's `None`
    becomes `None`, any other returned value `v` becomes `Some(v)`. */
module Wrappers {

  datatype Option<+T> = None | Some(value: T)

}
